=== FILE: README.md ===
# Jellyfin upcoming-media sensor, modelled in Dafny

A Home Assistant sensor that lists the latest items of a Jellyfin media
server for the Upcoming Media card. The server is queried over HTTP. For
each library, or each library type when libraries are grouped, the sensor
keeps the latest items. It renders them as a card list: a template entry,
then one card per item. Each card carries its title, release line, episode
code or season count, runtime in minutes, genres, rating, studio or artists,
poster and fanart images, a deep link into the web client, a trailer URL
and a summary.

The model has one module per concern:

- `Records`: the server's JSON items and library views, as datatypes. A key
  that may be missing is an `Option`.
- `Client`: the `JellyfinClient` class. Its `data` dict and `_state` text
  are fields, and its methods update them. Each HTTP request is replaced by
  its response, given as a parameter.
- `Artwork`: image file names, the local URL of a stored image, and the
  choice between a local image and the TVDB fallback.
- `Cards`: the card, template and attribute datatypes and the five templates.
- `Formatter`: the per-kind card rules and the dispatch on the first item's
  type, with their properties.
- `Setup`: filtering and grouping the library views into sensor
  configurations.
- `Sensor`: the sensor class. It covers the entity slug, the card-list
  methods, `extra_state_attributes` and `update`.
- `Text`, `Sorting`, `Wrappers`: Python's integer rendering and string
  order, a stable sort and `groupby`, and `Option`.

Several properties are proved:

- The card list has the template first, then one card per item, in order.
- The i-th item's images are numbered i + 1. No two cards of one list
  share a stored file, whether poster or fanart.
- Each optional key is present exactly when the source sets it.
- Episode codes, for any season and episode number, and dates read back
  to the numbers they were written from.
- Runtime is the truncated number of minutes.
- As written, dispatch never reaches the "other" branch.
- Grouping yields one sensor per library type, holding exactly the ids of
  that type.
- A grouped refresh is a stable, newest-first permutation of everything
  fetched. In a grouped refresh, a failed request leaves the sensor
  unchanged; a single-library sensor sets its state to "error" and keeps
  its data.
- The client's state and data dict change exactly as the code changes them.

Behaviours of the code as written, and how the model treats them:

- Every type other than Episode, Series and Movie is handled as music. The
  test `Type == "MusicAlbum" or "Audio"` is always true (sensor.py:489). The
  final branch is still modelled, as `HandleOther`.
- In that final branch, `studio` is built from the artists, not from the
  first studio. The `rating` key is always set, to a bare star when the
  item has no rating.
- Series and movie cards have no `release` key when there is no premiere
  date. Music cards always get `Released: <year or nothing>`.
- A failed image write leaves `None` in the `poster` or `fanart` key. The
  key is not omitted.
- Exceptions do escape:
  - A grouped refresh with a failed request raises `TypeError`.
  - `get_view_categories` raises `KeyError` after a non-200 status when
    nothing was stored before.
  - The handlers raise `KeyError` on missing keys. This is a precondition
    in the model.
  - The TVDB fallback raises `TypeError`. `get_tvdb_images` (client.py:84)
    has no `self` parameter. Called as a bound method (sensor.py:612-614),
    it receives three positional arguments: the client, the TVDB id and the
    image kind. Nothing in either file attaches `<Type>_bytes` keys to an
    item; client.py:56 stores the server's JSON as it is. So as written,
    every card reaches this call, and every build of non-empty attributes
    raises. The model records the call the code evidently intends, as a
    symbolic `TvdbFallback(id, kind)` value, and does not reproduce the raise
    (see "## Left out").

## Model

| member | source | states |
|---|---|---|
| Text.PyPrefix | custom_components/jellyfin_upcoming_media/client.py:56 | Python's `[:n]` is a prefix of length min(n, len) for n >= 0, and drops the last -n elements for negative n |
| Client.Fetched | custom_components/jellyfin_upcoming_media/client.py:43-63 | `get_data` returns a list exactly on status 200, and that list is the payload cut to `max_items` |
| Client.FetchedBound | custom_components/jellyfin_upcoming_media/client.py:56 | with a non-negative `max_items`, at most `max_items` items are kept, and a shorter payload is kept whole |
| Client.TvdbImages | custom_components/jellyfin_upcoming_media/client.py:84-85 | exactly two URLs, poster then background, each under `banners/movies/<id>/` and ending in `s/<id>.jpg` |
| Client.JellyfinClient.constructor | custom_components/jellyfin_upcoming_media/client.py:12-21 | `ssl` is stored as "s" or "" and `show_episodes` as "&GroupItems=False" or "", each following its flag; the data dict starts empty |
| Client.JellyfinClient.UserViewsUrl | custom_components/jellyfin_upcoming_media/client.py:26 | the views URL starts at the server origin with `/UserViews?userId=` and ends with the API key, with nothing between the two; a missing setting prints as None |
| Client.JellyfinClient.LatestUrl | custom_components/jellyfin_upcoming_media/client.py:44-46 | the latest-items URL starts at the origin with `/Users/<user>/Items/Latest?Limit=<max_items>&Fields=`; the field list follows exactly; it ends with `&ParentId=<id>`, the API key and the GroupItems suffix when episodes are enabled |
| Client.JellyfinClient.ImageUrl | custom_components/jellyfin_upcoming_media/client.py:65-67 | the image URL names the item and image type and asks for at most 640x360 at quality 90, followed by the user id and API key; the two parts make up the whole URL |
| Client.JellyfinClient.BaseUrl | custom_components/jellyfin_upcoming_media/client.py:69-72 | the base URL is https exactly when TLS is on, and ends with `://host:port` |
| Client.JellyfinClient.BaseUrlIsOrigin | custom_components/jellyfin_upcoming_media/client.py:69-72 | deep links use the same origin as the API requests |
| Client.JellyfinClient.GetViewCategories | custom_components/jellyfin_upcoming_media/client.py:23-41 | on a transport error: nothing returned, state unreachable. On 200: the views are stored and returned. Otherwise: state unreachable, and the earlier views are returned, or a `KeyError` if there are none |
| Client.JellyfinClient.GetData | custom_components/jellyfin_upcoming_media/client.py:43-63 | on 200: state Online, and the truncated list is stored under the category id and returned. Otherwise: None, state unreachable, data dict unchanged |
| Text.Format02 | custom_components/jellyfin_upcoming_media/sensor.py:218-220 | `{:02d}` is at least two characters of integer text that reads back to the number, for any integer; for 0..99 it is exactly two digits |
| Text.NatToStringRoundTrip | custom_components/jellyfin_upcoming_media/sensor.py:609 | the decimal text of a sequence number reads back to that number |
| Sorting.SortBySorted | custom_components/jellyfin_upcoming_media/sensor.py:567 | the sort is ordered by its key and is a permutation of its input |
| Sorting.SortByStable | custom_components/jellyfin_upcoming_media/sensor.py:567 | items with equal keys keep their relative order |
| Sorting.RunsAreKeyFilters | custom_components/jellyfin_upcoming_media/sensor.py:142 | on a sorted list, each `groupby` run holds exactly the items of its key |
| Sorting.RunsIncreasing | custom_components/jellyfin_upcoming_media/sensor.py:142 | on a sorted list, the run keys strictly increase, so no key has two runs |
| Sorting.RunsCover | custom_components/jellyfin_upcoming_media/sensor.py:142 | every item's key has a run |
| Artwork.ImageFilenameRoundTrip | custom_components/jellyfin_upcoming_media/sensor.py:609 | the image kind, library kind and sequence number read back from the file name |
| Artwork.ImageFilenameInjective | custom_components/jellyfin_upcoming_media/sensor.py:609 | two images share a file name exactly when kind, library and number all agree |
| Artwork.StoreImageBytes | custom_components/jellyfin_upcoming_media/sensor.py:576-600 | a URL exactly when the write succeeds, and that URL is the static prefix followed by the file name |
| Artwork.LocalOrRemote | custom_components/jellyfin_upcoming_media/sensor.py:602-614 | non-empty bytes give a local URL named after kind, library and position, or None if the write fails; otherwise the TVDB fallback with the TVDB id or "" |
| Formatter.Dispatch | custom_components/jellyfin_upcoming_media/sensor.py:481-490 | the final branch is never taken, and every type other than Episode, Series and Movie is handled as music |
| Formatter.DispatchTemplate | custom_components/jellyfin_upcoming_media/sensor.py:481-490 | Episode gets TV_DEFAULT, Series TV_ALTERNATE, Movie MOVIE_DEFAULT, and any other type MUSIC_DEFAULT |
| Formatter.DeepLink | custom_components/jellyfin_upcoming_media/sensor.py:182-185 | the link is the base URL, then the details path, then exactly the item id |
| Formatter.Runtime | custom_components/jellyfin_upcoming_media/sensor.py:211-215 | "" exactly when ticks are absent; otherwise the whole minutes, truncated toward zero |
| Formatter.EpisodeCodeRoundTrip | custom_components/jellyfin_upcoming_media/sensor.py:217-220 | for any season and episode numbers, including 100 and above and negatives, parsing the code at its first `E` gives both numbers back; for 0..99 the code is the six characters `SxxEyy` |
| Formatter.IsoDateRoundTrip | custom_components/jellyfin_upcoming_media/sensor.py:204-206 | the release date is `YYYY-MM-DD`, and year, month and day read back |
| Formatter.OneDecimalRoundTrip | custom_components/jellyfin_upcoming_media/sensor.py:297-300 | the one-decimal rating text reads back to the rating |
| Formatter.CardListAppend | custom_components/jellyfin_upcoming_media/sensor.py:196-250 | handling one more item appends its card, numbered by the list's length so far |
| Formatter.CardListShape | custom_components/jellyfin_upcoming_media/sensor.py:187-253 | the list is the template followed by one card per item, in order, the i-th numbered i + 1 |
| Formatter.CardKeys | custom_components/jellyfin_upcoming_media/sensor.py:187-557 | which optional keys each kind of card carries, and which item keys decide them |
| Formatter.CommonKeys | custom_components/jellyfin_upcoming_media/sensor.py:241-247 | every kind fills `airdate`, `runtime`, `deep_link`, `trailer` and `summary` the same way |
| Formatter.ReleaseAndRating | custom_components/jellyfin_upcoming_media/sensor.py:204-527 | an episode's `release` is `Released <YYYY-MM-DD>`, or "" without a premiere date; series and movies give the same text when dated; music gives `Released: <year>` or `Released: `; a rating is a star and the rating to one decimal, and in the final branch a bare star when there is none (lines 204-209, 272, 298-299, 351, 366-367, 428, 438-439, 524-527) |
| Formatter.EpisodeNumberText | custom_components/jellyfin_upcoming_media/sensor.py:217-224 | with an episode index: exactly `S{:02d}E{:02d}` of the season and episode, which parses back to both numbers whatever their size. With only a season: exactly `Season N Special`. With neither: no number |
| Formatter.ShowNumberText | custom_components/jellyfin_upcoming_media/sensor.py:274-295 | the season count is plural exactly when there is more than one season, and an episode code replaces it |
| Formatter.SeasonCountPlural | custom_components/jellyfin_upcoming_media/sensor.py:274-281 | the count starts with the number of seasons, and ends in "seasons" exactly when there is more than one |
| Formatter.StudioText | custom_components/jellyfin_upcoming_media/sensor.py:362-417 | a movie names its first studio; music names the first one, two or three artists joined by ", " |
| Formatter.ImageFiles | custom_components/jellyfin_upcoming_media/sensor.py:225-239 | poster and fanart files are named after the card's kind and position |
| Formatter.EpisodeImagesShareFile | custom_components/jellyfin_upcoming_media/sensor.py:225-239 | an episode's poster and fanart are written to the same file and point to the same URL |
| Formatter.ImagesDistinct | custom_components/jellyfin_upcoming_media/sensor.py:225-239 | two cards of one list never share a stored file: poster against poster, poster against fanart, and fanart against fanart |
| Formatter.CardPairApart | custom_components/jellyfin_upcoming_media/sensor.py:225-239 | the cards built from any two readable records at different positions keep all four image pairings in different files |
| Setup.Filter | custom_components/jellyfin_upcoming_media/sensor.py:136 | `filter` keeps exactly the elements that pass |
| Setup.FilterAppend | custom_components/jellyfin_upcoming_media/sensor.py:136-139 | filtering a concatenation filters each part in turn, and one element stays exactly when it passes; so `filter` keeps the server's order and repeats |
| Setup.Kept | custom_components/jellyfin_upcoming_media/sensor.py:136-139 | a library is kept exactly when its type is supported and, if an include list is given, it is named in it |
| Setup.Dedup | custom_components/jellyfin_upcoming_media/sensor.py:143 | `list(set(...))` has the same members and no duplicates |
| Setup.GroupsByType | custom_components/jellyfin_upcoming_media/sensor.py:142 | each group is all kept libraries of one type, in server order; types differ between groups; every library's type has a group |
| Setup.GroupHeadsKept | custom_components/jellyfin_upcoming_media/sensor.py:143 | the first library of a group is a kept library |
| Setup.GroupConfigIds | custom_components/jellyfin_upcoming_media/sensor.py:143 | a group's ids are the ids of its libraries |
| Setup.GroupConfigs | custom_components/jellyfin_upcoming_media/sensor.py:140-143 | one configuration per group, each of a supported type |
| Setup.Configs | custom_components/jellyfin_upcoming_media/sensor.py:136-150 | one sensor per kept library, or per group when grouping, and every sensor has a supported type's display name |
| Setup.UngroupedConfigs | custom_components/jellyfin_upcoming_media/sensor.py:145-150 | without grouping, sensor i takes the name, id and type of kept library i |
| Setup.GroupTypesDistinct | custom_components/jellyfin_upcoming_media/sensor.py:142-143 | no two grouped sensors have the same type |
| Setup.GroupTypesCover | custom_components/jellyfin_upcoming_media/sensor.py:142-143 | every kept library's type has a grouped sensor |
| Setup.GroupMembers | custom_components/jellyfin_upcoming_media/sensor.py:142-143 | a grouped sensor holds the ids of exactly the libraries of its type, each once, and the first one's name |
| Sensor.CollapseNonWord | custom_components/jellyfin_upcoming_media/sensor.py:169 | the result has only word characters and is never longer |
| Sensor.CollapseWordOnly | custom_components/jellyfin_upcoming_media/sensor.py:169 | a name made only of word characters is unchanged |
| Sensor.CollapseWordPrefix | custom_components/jellyfin_upcoming_media/sensor.py:169 | leading word characters are copied as they are |
| Sensor.CollapseGap | custom_components/jellyfin_upcoming_media/sensor.py:169 | a whole run of non-word characters becomes exactly one `_`. With CollapseWordPrefix, this fixes the result on every name |
| Sensor.DropTrailingUnderscore | custom_components/jellyfin_upcoming_media/sensor.py:169 | a text ending in `_` loses exactly that one underscore; any other text is unchanged |
| Sensor.EntitySlug | custom_components/jellyfin_upcoming_media/sensor.py:167-171 | the slug is `jellyfin_latest_` followed by the collapsed name, lower-cased character by character, less one final `_`; it has only word characters, none upper case |
| Sensor.EntitySlugOfCleanName | custom_components/jellyfin_upcoming_media/sensor.py:167-171 | a lower-case word-only name not ending in `_` is kept as it is |
| Sensor.CollapseTwoWords | custom_components/jellyfin_upcoming_media/sensor.py:169 | a run of non-word characters between two words becomes exactly one underscore |
| Sensor.FirstFailure | custom_components/jellyfin_upcoming_media/sensor.py:564-566 | the position of the first request that returns None: every earlier one succeeded |
| Sensor.GatheredMembers | custom_components/jellyfin_upcoming_media/sensor.py:564-566 | the merged list holds exactly the items of the fetched lists |
| Sensor.MergedNewestFirst | custom_components/jellyfin_upcoming_media/sensor.py:567 | the merged list is newest first, a permutation of what was fetched, and keeps the fetch order of equal timestamps |
| Sensor.AppendAll | custom_components/jellyfin_upcoming_media/sensor.py:565-566 | appending each item in turn extends the list by all items, in order |
| Sensor.UpcomingMediaSensor.constructor | custom_components/jellyfin_upcoming_media/sensor.py:159-171 | a grouped sensor is named after its type, any other after its library; the slug is computed from that name; no state and no data yet |
| Sensor.UpcomingMediaSensor.Name | custom_components/jellyfin_upcoming_media/sensor.py:175-176 | `Latest <category> on Jellyfin` |
| Sensor.UpcomingMediaSensor.CardsOf | custom_components/jellyfin_upcoming_media/sensor.py:192-250 | the card loop builds the template and one card per item, numbered by the list's length |
| Sensor.UpcomingMediaSensor.HandleTvEpisodes | custom_components/jellyfin_upcoming_media/sensor.py:187-253 | the attributes are the episode card list and the attribution |
| Sensor.UpcomingMediaSensor.HandleTvShow | custom_components/jellyfin_upcoming_media/sensor.py:255-332 | the attributes are the series card list and the attribution |
| Sensor.UpcomingMediaSensor.HandleMovie | custom_components/jellyfin_upcoming_media/sensor.py:334-399 | the attributes are the movie card list and the attribution |
| Sensor.UpcomingMediaSensor.HandleMusic | custom_components/jellyfin_upcoming_media/sensor.py:401-471 | the attributes are the music card list and the attribution |
| Sensor.UpcomingMediaSensor.HandleOther | custom_components/jellyfin_upcoming_media/sensor.py:491-555 | the attributes are the card list for other types and the attribution |
| Sensor.UpcomingMediaSensor.ExtraStateAttributes | custom_components/jellyfin_upcoming_media/sensor.py:474-557 | no attributes exactly when there is no data; otherwise the list of the kind the first item's type selects |
| Sensor.UpcomingMediaSensor.FetchGroup | custom_components/jellyfin_upcoming_media/sensor.py:563-566 | each id is fetched in turn until the first failure; the merged list exists exactly when none fails; the client's dict and state follow the fetches made |
| Sensor.UpcomingMediaSensor.Update | custom_components/jellyfin_upcoming_media/sensor.py:559-574 | single id: Online with the fetched list, or error with the old data. Group: a `TypeError` with the sensor unchanged, or Online with the merged list sorted newest first |

## Left out

- Artwork.LocalOrRemote keeps the TVDB fallback as a symbolic `TvdbFallback(id, kind)` value. The `TypeError` that the call raises as written (`get_tvdb_images` at client.py:84 has no `self`, and sensor.py:612-614 calls it as a bound method) is not modelled. So Sensor.UpcomingMediaSensor.ExtraStateAttributes and the `Handle*` methods return card lists where the source raises on any card without image bytes, which as written is every card.
- HTTP requests, timeouts and `get_image_bytes` (client.py:74-82) are left out. Each response is a parameter.
- Disk writes are left out. The set of file names whose write fails is a parameter. So both writes of one file name succeed or fail together. An episode writes its poster and its fanart to the same file (sensor.py:225-239), and Formatter.EpisodeImagesShareFile's `poster == fanart` depends on this.
- Logging, `PLATFORM_SCHEMA`, `add_devices`, the `hass.data` lookup, the `state` and `friendly_name` properties, and `base_dir` have no behaviour to prove and are left out.
- `use_backdrop` is stored by the constructor (sensor.py:163), as `useBackdrop`, and nothing reads it, in the source or in the model.
- The entity id is Home Assistant's `sensor.` format applied to the modelled slug. That format is not part of this model.
- `setup_platform` gets the view list as a value. The client call that produces it is modelled by `GetViewCategories`. A `None` view list makes `filter` raise, and that case is not modelled.
- `datetime.now()` is a parameter, and one `now` serves the whole list. sensor.py:202 reads the clock once per item, so a list built across midnight can differ in `airdate`. `isoparse` is not modelled: a premiere date arrives with its calendar date already parsed.
- Sensor.IsWordChar treats every non-ASCII character as a word character, and `Lower` folds only ASCII. Python's Unicode rules for `\w` and `lower()` are not modelled.
- Formatter.Runtime ignores the float rounding of `timedelta` and `/ 60`. Those can change the minute only for tick counts within a few ticks of a minute boundary.
- Formatter.OneDecimal works on ratings held in tenths. `{:.1f}` on other floats, and `str(float)` in the final branch, are not modelled.
- Setup.Dedup orders ids by position. Python's set order is unspecified, so only the members and their uniqueness are claimed.
- The grouped sort is in place in the source. The model computes the sorted list as a value and assigns it.
- Each image-byte buffer is reduced to "empty or not". A `BytesIO` read to its end reads as empty afterwards, so a second attribute build on the same data reaches the TVDB fallback (and its `TypeError`, above); the model treats every build as reading fresh buffers.
- An empty `RemoteTrailers` list gets `{}` appended in place. The model keeps items immutable, and the append does not change any card.
- The handlers' `KeyError` on a missing `Name`, `SeriesName`, `ChildCount`, or a `ParentIndexNumber` read when only `IndexNumber` is present, is a precondition (`Readable`).
- The key order of the card dicts is not modelled.

=== FILE: artwork.dfy ===
/**
 * Choosing a card image: bytes already fetched from the server are stored
 * under a name built from the card's position and served from the local
 * static directory; without bytes the sensor falls back to the TVDB artwork
 * site. Writing the file is I/O: which writes fail is a parameter.
 */
module Artwork {
  import opened Wrappers
  import opened Text
  import opened Records

  /** The static URL path under which stored images are served. */
  const LocalUrlPrefix := "/local/community/jellyfin_upcoming_media/"

  /** Where a card's `poster` or `fanart` points. */
  datatype ImageRef =
    | LocalImage(url: string)
      /** storing the bytes failed, so the key holds None */
    | NoImage
      /** the TVDB fallback call, recorded with the arguments it is given */
    | TvdbFallback(tvdbId: string, imageKind: string)

  predicate NoUnderscore(s: string) { forall i :: 0 <= i < |s| ==> s[i] != '_' }

  /** `f'{upcoming_image_type}_{library_type}_{sequence_number}.jpg'` */
  function ImageFilename(upcomingType: string, libraryType: string, seqNo: nat): string
  {
    upcomingType + "_" + libraryType + "_" + NatToString(seqNo) + ".jpg"
  }

  /** The position of the first `c` in `s`, or `|s|` when there is none. */
  function IndexOf(s: string, c: char): (k: nat)
    ensures k <= |s| && (k < |s| ==> s[k] == c)
    ensures forall i :: 0 <= i < k ==> s[i] != c
  {
    if s == [] then 0 else if s[0] == c then 0 else 1 + IndexOf(s[1..], c)
  }

  /** Reads an image filename back into its three parts. */
  function ParseImageFilename(f: string): Option<(string, string, nat)>
  {
    if |f| < 4 || f[|f| - 4..] != ".jpg" then None
    else
      var stem := f[..|f| - 4];
      var i := IndexOf(stem, '_');
      if i == |stem| then None
      else
        var rest := stem[i + 1..];
        var j := IndexOf(rest, '_');
        if j == |rest| then None
        else
          var digits := rest[j + 1..];
          if digits == [] || !AllDigits(digits) then None
          else Some((stem[..i], rest[..j], DigitsValue(digits)))
  }

  /** The first `c` of `a + [c] + b` is the one after `a` when `a` holds none. */
  lemma {:induction false} IndexOfSeparator(a: string, c: char, b: string)
    requires forall i :: 0 <= i < |a| ==> a[i] != c
    ensures IndexOf(a + [c] + b, c) == |a|
  {
    assert (a + [c] + b)[|a|] == c;
    assert forall i :: 0 <= i < |a| ==> (a + [c] + b)[i] == a[i];
  }

  lemma {:induction false} IndexOfAfter(a: string, b: string)
    requires NoUnderscore(a)
    ensures IndexOf(a + "_" + b, '_') == |a|
  {
    IndexOfSeparator(a, '_', b);
  }

  /**
   * The name determines the card it belongs to: while the image and library
   * kinds contain no underscore, the three parts can be read back.
   */
  lemma {:induction false} ImageFilenameRoundTrip(upcomingType: string, libraryType: string, seqNo: nat)
    requires NoUnderscore(upcomingType) && NoUnderscore(libraryType)
    ensures ParseImageFilename(ImageFilename(upcomingType, libraryType, seqNo)) == Some((upcomingType, libraryType, seqNo))
  {
    var digits := NatToString(seqNo);
    var f := ImageFilename(upcomingType, libraryType, seqNo);
    var stem := upcomingType + "_" + libraryType + "_" + digits;
    assert f == stem + ".jpg";
    assert f[..|f| - 4] == stem && f[|f| - 4..] == ".jpg";
    assert stem == upcomingType + "_" + (libraryType + "_" + digits);
    IndexOfAfter(upcomingType, libraryType + "_" + digits);
    var rest := stem[|upcomingType| + 1..];
    assert rest == libraryType + "_" + digits;
    IndexOfAfter(libraryType, digits);
    assert rest[|libraryType| + 1..] == digits;
    assert stem[..|upcomingType|] == upcomingType;
    assert rest[..|libraryType|] == libraryType;
    NatToStringRoundTrip(seqNo);
  }

  /** Two images share a file exactly when they share kind, library and position. */
  lemma {:induction false} ImageFilenameInjective(u1: string, l1: string, n1: nat, u2: string, l2: string, n2: nat)
    requires NoUnderscore(u1) && NoUnderscore(l1) && NoUnderscore(u2) && NoUnderscore(l2)
    ensures ImageFilename(u1, l1, n1) == ImageFilename(u2, l2, n2) <==> u1 == u2 && l1 == l2 && n1 == n2
  {
    ImageFilenameRoundTrip(u1, l1, n1);
    ImageFilenameRoundTrip(u2, l2, n2);
  }

  /** The URL part of `store_image_bytes`: the static path of the file, or None when writing failed. */
  function StoreImageBytes(filename: string, writeFails: bool): (url: Option<string>)
    ensures url.Some? <==> !writeFails
    ensures url.Some? ==> IsPrefix(LocalUrlPrefix, url.value) && url.value[|LocalUrlPrefix|..] == filename
  {
    if writeFails then None else Some(LocalUrlPrefix + filename)
  }

  /**
   * `get_local_image_or_remote`: a record carrying non-empty bytes for the
   * server image type gets a local file named after its position; any other
   * record falls back to TVDB with its TVDB id ("" when it has none).
   */
  function LocalOrRemote(r: MediaRecord, jellyfinType: string, upcomingType: string, libraryType: string,
                         tvdbType: string, seqNo: nat, failedWrites: set<string>): (ref: ImageRef)
    ensures jellyfinType + "_bytes" !in r.imageBytes ==> ref == TvdbFallback(r.tvdbId.GetOr(""), tvdbType)
    ensures jellyfinType + "_bytes" in r.imageBytes ==>
      var f := ImageFilename(upcomingType, libraryType, seqNo);
      if f in failedWrites then ref == NoImage else ref.LocalImage? && ref.url == LocalUrlPrefix + f
  {
    if jellyfinType + "_bytes" in r.imageBytes then
      var f := ImageFilename(upcomingType, libraryType, seqNo);
      match StoreImageBytes(f, f in failedWrites)
      case Some(url) => LocalImage(url)
      case None => NoImage
    else TvdbFallback(r.tvdbId.GetOr(""), tvdbType)
  }
}

=== FILE: cards.dfy ===
/**
 * What the sensor hands to the Upcoming Media card: a list whose first
 * element is the line template and whose other elements are one card per
 * media item, with the attribution text beside it.
 */
module Cards {
  import opened Wrappers
  import opened Artwork

  /** A card value that is a string in some cases and an integer in others. */
  datatype Field = Str(s: string) | Int(i: int)

  /** The template the front end fills: a title, four lines and an icon. */
  datatype Template = Template(title: string, line1: string, line2: string, line3: string, line4: string, icon: string)

  const Icon := "mdi:arrow-down-bold"

  /** `TV_DEFAULT`: the template of the episode list. */
  const TvDefault := Template("$title", "$release", "$number", "$episode", "Runtime: $runtime", Icon)
  /** `TV_ALTERNATE`: the template of the series list. */
  const TvAlternate := Template("$title", "$release • $number", "Average Runtime: $runtime", "$genres", "$rating • $studio", Icon)
  /** `MOVIE_DEFAULT` */
  const MovieDefault := Template("$title", "$release", "Runtime: $runtime", "$genres", "$rating • $studio", Icon)
  /** `MUSIC_DEFAULT` */
  const MusicDefault := Template("$title", "$studio • $release", "Runtime: $runtime", "$genres", "", Icon)
  /** `OTHER_DEFAULT` */
  const OtherDefault := Template("$title", "$release", "Runtime: $runtime", "$genres", "$rating • $studio", Icon)

  const Attribution := "Data is provided by Jellyfin."

  /**
   * One card. A key that only some cards carry is an `Option`: `None` means
   * the key is absent from the dict. `officialRating` is the
   * `officialrating` key.
   */
  datatype Card = Card(
    title: string,
    episode: Option<string>,
    officialRating: Option<string>,
    airdate: string,
    release: Option<string>,
    runtime: Field,
    number: Option<Field>,
    genres: Option<seq<string>>,
    studio: Option<string>,
    rating: Option<string>,
    poster: ImageRef,
    fanart: ImageRef,
    deepLink: string,
    trailer: string,
    summary: string)

  /** An element of the `data` list: the template first, then cards. */
  datatype Entry = Defaults(template: Template) | Item(card: Card)

  /** The state attributes: `{}` or `{"data": ..., "attribution": ...}`. */
  datatype Attributes = NoAttributes | Attributes(data: seq<Entry>, attribution: string)
}

=== FILE: client.dfy ===
/**
 * The HTTP client of the media server (`JellyfinClient`). Each request is
 * replaced by its response, passed in as a parameter; what the model keeps is
 * the URL each request would use, the `data` dict of last results, the
 * `_state` status text and the truncation to `max_items`.
 */
module Client {
  import opened Wrappers
  import opened Text
  import opened Records

  /** What `requests.get` gives: an `OSError`, or a status code with the decoded body. */
  datatype Response<T> = OSError | Http(status: int, body: T)

  /** A value of the client's `data` dict. */
  datatype Stored = Views(views: seq<ViewCategory>) | Items(items: seq<MediaRecord>)

  /** How `get_view_categories` ends: it returns None, returns a stored value, or raises `KeyError`. */
  datatype ViewsOutcome = NoViews | Returned(value: Stored) | MissingKey

  const ViewCategoriesKey := "ViewCategories"
  const Online := "Online"
  const GroupItemsSuffix := "&GroupItems=False"
  const LatestFields := "ProviderIds,Overview,RemoteTrailers,CommunityRating,Studios,PremiereDate,Genres,ChildCount,ProductionYear,DateCreated"
  const TvdbBanners := "https://artworks.thetvdb.com/banners/movies/"

  /** The status text after a failed request. */
  function Unreachable(host: string): string { host + " cannot be reached" }

  /** An optional configuration string as an f-string prints it: a missing one prints as "None". */
  function Render(o: Option<string>): string { o.GetOr("None") }

  /** The list `get_data` returns for one response: the truncated body on status 200, None otherwise. */
  function Fetched(response: Response<seq<MediaRecord>>, maxItems: int): (r: Option<seq<MediaRecord>>)
    ensures r.Some? <==> response.Http? && response.status == 200
    ensures r.Some? ==> r.value == PyPrefix(response.body, maxItems)
  {
    if response.Http? && response.status == 200 then Some(PyPrefix(response.body, maxItems)) else None
  }

  /** With a non-negative `max_items`, `get_data` keeps at most `max_items` items, and all of them when fewer arrive. */
  lemma {:induction false} FetchedBound(response: Response<seq<MediaRecord>>, maxItems: int)
    requires 0 <= maxItems && Fetched(response, maxItems).Some?
    ensures var items := Fetched(response, maxItems).value;
      |items| <= maxItems && (|response.body| <= maxItems ==> items == response.body)
  {
  }

  /** `get_tvdb_images(tvdbid)`: a poster URL then a background URL on the TVDB artwork site. */
  function TvdbImages(tvdbId: string): (urls: seq<string>)
    ensures |urls| == 2
    ensures forall k :: 0 <= k < 2 ==>
      IsPrefix(TvdbBanners + tvdbId + "/", urls[k]) && IsSuffix("s/" + tvdbId + ".jpg", urls[k])
    ensures IsPrefix(TvdbBanners + tvdbId + "/poster", urls[0])
    ensures IsPrefix(TvdbBanners + tvdbId + "/background", urls[1])
  {
    var kinds := ["poster", "background"];
    seq(|kinds|, k requires 0 <= k < |kinds| => TvdbBanners + tvdbId + "/" + kinds[k] + "s/" + tvdbId + ".jpg")
  }

  class JellyfinClient {
    /** Last results, keyed by category id (and "ViewCategories" for the view list). */
    var data: map<string, Stored>
    /** `_state`: unset until the first request, then "Online" or "<host> cannot be reached". */
    var state: Option<string>
    const host: string
    /** "s" when TLS is on, "" otherwise. */
    const ssl: string
    const port: nat
    const apiKey: Option<string>
    const userId: Option<string>
    const maxItems: int
    /** "&GroupItems=False" when episodes are shown one by one, "" otherwise. */
    const showEpisodes: string

    ghost predicate Valid()
    {
      (ssl == "s" || ssl == "") && (showEpisodes == GroupItemsSuffix || showEpisodes == "")
    }

    constructor (host: string, apiKey: Option<string>, ssl: bool, port: nat, maxItems: int,
                 userId: Option<string>, showEpisodes: bool)
      ensures Valid()
      ensures this.host == host && this.apiKey == apiKey && this.port == port
      ensures this.maxItems == maxItems && this.userId == userId
      ensures (this.ssl == "s") == ssl && (this.ssl == "") == !ssl
      ensures (this.showEpisodes == GroupItemsSuffix) == showEpisodes && (this.showEpisodes == "") == !showEpisodes
      ensures data == map[] && state == None
    {
      data := map[];
      state := None;
      this.host := host;
      this.ssl := if ssl then "s" else "";
      this.port := port;
      this.apiKey := apiKey;
      this.userId := userId;
      this.maxItems := maxItems;
      this.showEpisodes := if showEpisodes then GroupItemsSuffix else "";
    }

    /** `http{ssl}://{host}:{port}`, where every API request goes. */
    function Origin(): string
    {
      "http" + ssl + "://" + host + ":" + NatToString(port)
    }

    /** The URL `get_view_categories` requests. */
    function UserViewsUrl(): (url: string)
      ensures IsPrefix(Origin() + "/UserViews?userId=" + Render(userId), url)
      ensures IsSuffix("&api_key=" + Render(apiKey), url)
      ensures |url| == |Origin() + "/UserViews?userId=" + Render(userId)| + |"&api_key=" + Render(apiKey)|
    {
      var head := Origin() + "/UserViews?userId=" + Render(userId);
      var tail := "&api_key=" + Render(apiKey);
      ConcatAffixes(head, tail);
      head + tail
    }

    /**
     * The URL `get_data` requests: the user's latest items, at most
     * `max_items` of them, with the listed fields, under one parent library,
     * ungrouped when episodes are enabled.
     */
    function LatestUrl(categoryId: string): (url: string)
      ensures IsPrefix(Origin() + "/Users/" + Render(userId) + "/Items/Latest?Limit=" + IntToString(maxItems) + "&Fields=", url)
      ensures IsSuffix("&ParentId=" + categoryId + "&api_key=" + Render(apiKey) + showEpisodes, url)
      ensures var head := Origin() + "/Users/" + Render(userId) + "/Items/Latest?Limit=" + IntToString(maxItems) + "&Fields=";
        var tail := "&ParentId=" + categoryId + "&api_key=" + Render(apiKey) + showEpisodes;
        |url| == |head| + |LatestFields| + |tail| && url[|head|..|head| + |LatestFields|] == LatestFields
    {
      var head := Origin() + "/Users/" + Render(userId) + "/Items/Latest?Limit=" + IntToString(maxItems) + "&Fields=";
      var tail := "&ParentId=" + categoryId + "&api_key=" + Render(apiKey) + showEpisodes;
      ConcatAffixes3(head, LatestFields, tail);
      head + LatestFields + tail
    }

    /** `get_image_url`: one image of one item, scaled to at most 640x360, quality 90. */
    function ImageUrl(itemId: string, imageType: string): (url: string)
      ensures IsPrefix(Origin() + "/Items/" + itemId + "/Images/" + imageType + "?", url)
      ensures IsSuffix("maxHeight=360&maxWidth=640&quality=90&userId=" + Render(userId) + "&api_key=" + Render(apiKey), url)
      ensures |url| == |Origin() + "/Items/" + itemId + "/Images/" + imageType + "?"|
        + |"maxHeight=360&maxWidth=640&quality=90&userId=" + Render(userId) + "&api_key=" + Render(apiKey)|
    {
      var head := Origin() + "/Items/" + itemId + "/Images/" + imageType + "?";
      var tail := "maxHeight=360&maxWidth=640&quality=90&userId=" + Render(userId) + "&api_key=" + Render(apiKey);
      ConcatAffixes(head, tail);
      head + tail
    }

    /** `get_base_url`: the scheme follows the truthiness of the stored `ssl` text. */
    function BaseUrl(): (url: string)
      ensures IsPrefix("https://", url) <==> ssl != ""
      ensures IsSuffix("://" + host + ":" + NatToString(port), url)
    {
      var scheme := if ssl != "" then "https" else "http";
      var tail := "://" + host + ":" + NatToString(port);
      ConcatAffixes(scheme, tail);
      assert (scheme + tail)[..|scheme| + 3] == scheme + "://";
      assert ssl == "" ==> (scheme + tail)[4] == ':';
      scheme + tail
    }

    /** Deep links and API requests go to the same place. */
    lemma {:induction false} BaseUrlIsOrigin()
      requires Valid()
      ensures BaseUrl() == Origin()
    {
    }

    /** `get_view_categories`, given what the `/UserViews` request returned (its `Items`). */
    method GetViewCategories(response: Response<seq<ViewCategory>>) returns (r: ViewsOutcome)
      modifies this
      ensures response.OSError? ==> r == NoViews && data == old(data) && state == Some(Unreachable(host))
      ensures response.Http? && response.status == 200 ==>
        data == old(data)[ViewCategoriesKey := Views(response.body)] && state == old(state)
        && r == Returned(Views(response.body))
      ensures response.Http? && response.status != 200 ==>
        data == old(data) && state == Some(Unreachable(host))
        && r == (if ViewCategoriesKey in old(data) then Returned(old(data)[ViewCategoriesKey]) else MissingKey)
    {
      if response.OSError? {
        state := Some(Unreachable(host));
        return NoViews;
      }
      if response.status == 200 {
        data := data[ViewCategoriesKey := Views(response.body)];
      } else {
        state := Some(Unreachable(host));
      }
      if ViewCategoriesKey in data {
        r := Returned(data[ViewCategoriesKey]);
      } else {
        r := MissingKey;
      }
    }

    /** `get_data(categoryId)`, given what the latest-items request returned. */
    method GetData(categoryId: string, response: Response<seq<MediaRecord>>) returns (r: Option<seq<MediaRecord>>)
      modifies this
      ensures r == Fetched(response, maxItems)
      ensures state == Some(if r.Some? then Online else Unreachable(host))
      ensures data == if r.Some? then old(data)[categoryId := Items(r.value)] else old(data)
    {
      if response.OSError? {
        state := Some(Unreachable(host));
        return None;
      }
      if response.status == 200 {
        state := Some(Online);
        data := data[categoryId := Items(PyPrefix(response.body, maxItems))];
      } else {
        state := Some(Unreachable(host));
        return None;
      }
      r := Some(data[categoryId].items);
    }
  }
}

=== FILE: formatter.dfy ===
/**
 * How one media item becomes one card. Each list kind (episodes, series,
 * movies, music, anything else) has its own rules for which keys a card
 * carries and how their values are written; the values shared by all kinds
 * (air date, runtime, deep link, trailer, summary) are written the same way
 * everywhere.
 */
module Formatter {
  import opened Wrappers
  import opened Text
  import opened Records
  import opened Artwork
  import opened Cards

  /** The five card lists the sensor can produce. */
  datatype Kind = TvEpisodes | TvShow | Movie | Music | Other

  /** What a card needs besides its item: the deep-link origin, the current time and the image files whose writing fails. */
  datatype Env = Env(baseUrl: string, now: string, failedWrites: set<string>)

  const Star := "\U{2605}"
  const DetailsPath := "/web/index.html#!/details?id="
  /** 100-nanosecond ticks in a minute. */
  const TicksPerMinute := 600_000_000

  /** Python's truth value of a string. */
  predicate Truthy(s: string) { s != "" }

  /**
   * The branch `extra_state_attributes` takes for the `Type` of the first
   * item, exactly as written: the music test is `Type == "MusicAlbum" or
   * "Audio"`, whose second operand is a non-empty literal and always true.
   */
  function Dispatch(itemType: string): (k: Kind)
    ensures k != Other
    ensures k == Music <==> itemType != "Episode" && itemType != "Series" && itemType != "Movie"
  {
    if itemType == "Episode" then TvEpisodes
    else if itemType == "Series" then TvShow
    else if itemType == "Movie" then Movie
    else if itemType == "MusicAlbum" || Truthy("Audio") then Music
    else Other
  }

  /** The template that heads the list of each kind. */
  function TemplateOf(kind: Kind): Template
  {
    match kind
    case TvEpisodes => TvDefault
    case TvShow => TvAlternate
    case Movie => MovieDefault
    case Music => MusicDefault
    case Other => OtherDefault
  }

  /** `_create_deep_link`: the item's details page in the web client. */
  function DeepLink(baseUrl: string, itemId: string): (link: string)
    ensures IsPrefix(baseUrl + DetailsPath, link)
    ensures link[|baseUrl + DetailsPath|..] == itemId
  {
    baseUrl + DetailsPath + itemId
  }

  /**
   * The `runtime` key: whole minutes of the run time, truncated toward zero
   * as `int()` truncates, or "" when the item has no run time.
   */
  function Runtime(ticks: Option<int>): (f: Field)
    ensures ticks.None? <==> f == Str("")
    ensures ticks.Some? ==> f.Int?
    ensures ticks.Some? && 0 <= ticks.value ==> f.i * TicksPerMinute <= ticks.value < (f.i + 1) * TicksPerMinute
    ensures ticks.Some? && ticks.value < 0 ==> -f.i * TicksPerMinute <= -ticks.value < (-f.i + 1) * TicksPerMinute
  {
    match ticks
    case None => Str("")
    case Some(t) => Int(if t >= 0 then t / TicksPerMinute else -((-t) / TicksPerMinute))
  }

  /** `"S{:02d}E{:02d}".format(season, episode)` */
  function EpisodeCode(season: int, episode: int): string
  {
    "S" + Format02(season) + "E" + Format02(episode)
  }

  /** Reads `S<season>E<episode>` back: the text between `S` and the first `E`, and the text after it, as integers. */
  function ParseEpisodeCode(code: string): Option<(int, int)>
  {
    if code == [] || code[0] != 'S' then None
    else
      var body := code[1..];
      var k := IndexOf(body, 'E');
      if k == |body| then None
      else
        var season := body[..k];
        var episode := body[k + 1..];
        if IntText(season) && IntText(episode) then Some((IntValue(season), IntValue(episode))) else None
  }

  /**
   * Both numbers can be read back from the code, whatever their size or sign;
   * numbers below 100 give the six-character `SxxEyy`.
   */
  lemma {:induction false} EpisodeCodeRoundTrip(season: int, episode: int)
    ensures ParseEpisodeCode(EpisodeCode(season, episode)) == Some((season, episode))
    ensures 0 <= season < 100 && 0 <= episode < 100 ==>
      var code := EpisodeCode(season, episode);
      |code| == 6 && code[0] == 'S' && code[3] == 'E'
      && AllDigits(code[1..3]) && AllDigits(code[4..6])
      && DigitsValue(code[1..3]) == season && DigitsValue(code[4..6]) == episode
  {
    var s := Format02(season);
    var e := Format02(episode);
    CodeParses(s, e);
    if 0 <= season < 100 && 0 <= episode < 100 {
      var code := EpisodeCode(season, episode);
      assert code[1..3] == s;
      assert code[4..6] == e;
    }
  }

  /** The parser splits at the `E` that follows the season. */
  lemma {:induction false} CodeParses(s: string, e: string)
    requires IntText(s) && IntText(e)
    ensures ParseEpisodeCode("S" + s + "E" + e) == Some((IntValue(s), IntValue(e)))
  {
    var code := "S" + s + "E" + e;
    var body := s + "E" + e;
    assert code[0] == 'S' && code[1..] == body;
    IntTextNoLetter(s, 'E');
    IndexOfSeparator(s, 'E', e);
    assert body[..|s|] == s;
    assert body[|s| + 1..] == e;
  }

  /** `date.date()` printed: `YYYY-MM-DD`. */
  function IsoDate(d: CalendarDate): string
  {
    ZeroPad(d.year, 4) + "-" + ZeroPad(d.month, 2) + "-" + ZeroPad(d.day, 2)
  }

  /** A date with a four-digit year is ten characters, and its three numbers read back. */
  lemma {:induction false} IsoDateRoundTrip(d: CalendarDate)
    requires d.year < 10000 && d.month < 100 && d.day < 100
    ensures var s := IsoDate(d);
      |s| == 10 && s[4] == '-' && s[7] == '-'
      && AllDigits(s[..4]) && AllDigits(s[5..7]) && AllDigits(s[8..])
      && DigitsValue(s[..4]) == d.year && DigitsValue(s[5..7]) == d.month && DigitsValue(s[8..]) == d.day
  {
    var y := ZeroPad(d.year, 4);
    var m := ZeroPad(d.month, 2);
    var dd := ZeroPad(d.day, 2);
    assert |NatToString(d.year)| <= 4 by { NatToStringRoundTrip(d.year); SmallNatDigits(d.year, 4); }
    assert |NatToString(d.month)| <= 2 by { NatToStringRoundTrip(d.month); SmallNatDigits(d.month, 2); }
    assert |NatToString(d.day)| <= 2 by { NatToStringRoundTrip(d.day); SmallNatDigits(d.day, 2); }
    var s := IsoDate(d);
    assert s == y + "-" + m + "-" + dd;
    assert s[..4] == y && s[5..7] == m && s[8..] == dd;
    ZeroPadValue(d.year, 4);
    ZeroPadValue(d.month, 2);
    ZeroPadValue(d.day, 2);
  }

  function Pow10(k: nat): nat
  {
    if k == 0 then 1 else 10 * Pow10(k - 1)
  }

  /** A number below `10^k` has at most `k` digits. */
  lemma {:induction false} SmallNatDigits(n: nat, k: nat)
    requires 1 <= k && n < Pow10(k)
    ensures |NatToString(n)| <= k
  {
    if n >= 10 {
      assert k > 1;
      assert NatToString(n) == NatToString(n / 10) + [DigitChar(n % 10)];
      assert n / 10 < Pow10(k - 1);
      SmallNatDigits(n / 10, k - 1);
    }
  }

  /** `"{:.1f}"` of a rating held in tenths. */
  function OneDecimal(tenths: int): string
  {
    var a := if tenths < 0 then -tenths else tenths;
    (if tenths < 0 then "-" else "") + NatToString(a / 10) + "." + [DigitChar(a % 10)]
  }

  /** The rating can be read back: sign, whole part, a dot, and the tenths digit. */
  lemma {:induction false} OneDecimalRoundTrip(tenths: int)
    ensures var s := OneDecimal(tenths);
      var body := if tenths < 0 then s[1..] else s;
      (tenths < 0 <==> s[0] == '-')
      && |body| >= 3 && body[|body| - 2] == '.' && AllDigits(body[..|body| - 2]) && IsDigit(body[|body| - 1])
      && (if tenths < 0 then -1 else 1) * (10 * DigitsValue(body[..|body| - 2]) + (body[|body| - 1] as int - '0' as int)) == tenths
  {
    var a := if tenths < 0 then -tenths else tenths;
    var w := NatToString(a / 10);
    var c := DigitChar(a % 10);
    var body := w + "." + [c];
    var s := OneDecimal(tenths);
    assert s == (if tenths < 0 then "-" else "") + body;
    assert |body| == |w| + 2 && body[..|body| - 2] == w;
    assert body[|body| - 2] == '.' && body[|body| - 1] == c;
    assert c as int - '0' as int == a % 10;
    NatToStringRoundTrip(a / 10);
    assert 10 * DigitsValue(w) + a % 10 == a;
    if tenths < 0 {
      assert s[0] == '-' && s[1..] == body;
    } else {
      assert s == body && s[0] == w[0] && IsDigit(w[0]);
    }
  }

  /** The `rating` key of a series, movie or music card: a star and the rating to one decimal, when there is one. */
  function StarRating(rating: Option<Rating>): Option<string>
  {
    match rating
    case Some(r) => Some(Star + " " + OneDecimal(r.tenths))
    case None => None
  }

  /** The `rating` key of any other card: always present, with nothing after the star when there is no rating. */
  function StarRatingOrBlank(rating: Option<Rating>): string
  {
    Star + " " + (match rating case Some(r) => OneDecimal(r.tenths) case None => "")
  }

  /** The `trailer` key: the first trailer's URL, "" when there is no trailer or it has no URL. */
  function TrailerUrl(trailers: Option<seq<Trailer>>): string
  {
    match trailers
    case Some(ts) => if |ts| == 0 then "" else ts[0].url.GetOr("")
    case None => ""
  }

  /** The `studio` key of a movie: the first studio's name. */
  function FirstStudio(studios: Option<seq<Studio>>): Option<string>
  {
    match studios
    case Some(s) => if |s| > 0 then Some(s[0].name) else None
    case None => None
  }

  /** The `studio` key of music and other items: the first three artists, comma separated. */
  function ArtistsText(artists: Option<seq<string>>): Option<string>
  {
    match artists
    case Some(a) => if |a| > 0 then Some(Join(", ", PyPrefix(a, 3))) else None
    case None => None
  }

  /** The `airdate` key: the premiere timestamp as sent, or the current time. */
  function Airdate(r: MediaRecord, now: string): string
  {
    match r.premiereDate
    case Some(p) => p.raw
    case None => now
  }

  /** The `release` key of an episode, series or movie card, when the item has a premiere date. */
  function Released(r: MediaRecord): Option<string>
  {
    match r.premiereDate
    case Some(p) => Some("Released " + IsoDate(p.date))
    case None => None
  }

  /** `"{0} seasons"` or `"{0} season"`. */
  function SeasonCount(childCount: int): string
  {
    IntToString(childCount) + (if childCount > 1 then " seasons" else " season")
  }

  /** The `number` key of music and other cards: the episode code when both numbers are there, else the production year or "". */
  function CodeOrYear(r: MediaRecord): Field
  {
    if r.parentIndexNumber.Some? && r.indexNumber.Some? then Str(EpisodeCode(r.parentIndexNumber.value, r.indexNumber.value))
    else match r.productionYear
      case Some(y) => Int(y)
      case None => Str("")
  }

  /**
   * The keys a handler reads with `item[key]` are present, so it raises no
   * `KeyError`. The episode and series handlers test only `"IndexNumber" in
   * item` before reading `ParentIndexNumber`.
   */
  predicate Readable(kind: Kind, r: MediaRecord)
  {
    match kind
    case TvEpisodes => r.seriesName.Some? && (r.indexNumber.Some? ==> r.parentIndexNumber.Some?)
    case TvShow => r.name.Some? && r.childCount.Some? && (r.indexNumber.Some? ==> r.parentIndexNumber.Some?)
    case Movie => r.name.Some?
    case Music => r.name.Some?
    case Other => r.name.Some?
  }

  /** A card of the episode list; `n` is the card's position in the list (the template is 0). */
  function EpisodeCard(r: MediaRecord, n: nat, env: Env): Card
    requires Readable(TvEpisodes, r)
  {
    Card(
      title := r.seriesName.value,
      episode := Some(r.name.GetOr("")),
      officialRating := None,
      airdate := Airdate(r, env.now),
      release := Some(match r.premiereDate case Some(p) => "Released " + IsoDate(p.date) case None => ""),
      runtime := Runtime(r.runTimeTicks),
      number :=
        if r.indexNumber.Some? then Some(Str(EpisodeCode(r.parentIndexNumber.value, r.indexNumber.value)))
        else if r.parentIndexNumber.Some? then Some(Str("Season " + IntToString(r.parentIndexNumber.value) + " Special"))
        else None,
      genres := None,
      studio := None,
      rating := None,
      poster := LocalOrRemote(r, "Primary_parent", "poster", "episode", "poster", n, env.failedWrites),
      fanart := LocalOrRemote(r, "Primary", "poster", "episode", "poster", n, env.failedWrites),
      deepLink := DeepLink(env.baseUrl, r.id),
      trailer := TrailerUrl(r.remoteTrailers),
      summary := r.overview.GetOr(""))
  }

  /** A card of the series list. */
  function ShowCard(r: MediaRecord, n: nat, env: Env): Card
    requires Readable(TvShow, r)
  {
    Card(
      title := r.name.value,
      episode := None,
      officialRating := None,
      airdate := Airdate(r, env.now),
      release := Released(r),
      runtime := Runtime(r.runTimeTicks),
      number :=
        if r.indexNumber.Some? then Some(Str(EpisodeCode(r.parentIndexNumber.value, r.indexNumber.value)))
        else Some(Str(SeasonCount(r.childCount.value))),
      genres := r.genres,
      studio := None,
      rating := StarRating(r.communityRating),
      poster := LocalOrRemote(r, "Primary", "poster", "show", "poster", n, env.failedWrites),
      fanart := LocalOrRemote(r, "Backdrop", "fanart", "show", "background", n, env.failedWrites),
      deepLink := DeepLink(env.baseUrl, r.id),
      trailer := TrailerUrl(r.remoteTrailers),
      summary := r.overview.GetOr(""))
  }

  /** A card of the movie list. */
  function MovieCard(r: MediaRecord, n: nat, env: Env): Card
    requires Readable(Movie, r)
  {
    Card(
      title := r.name.value,
      episode := None,
      officialRating := None,
      airdate := Airdate(r, env.now),
      release := Released(r),
      runtime := Runtime(r.runTimeTicks),
      number := None,
      genres := r.genres,
      studio := FirstStudio(r.studios),
      rating := StarRating(r.communityRating),
      poster := LocalOrRemote(r, "Primary", "poster", "movie", "poster", n, env.failedWrites),
      fanart := LocalOrRemote(r, "Backdrop", "fanart", "movie", "background", n, env.failedWrites),
      deepLink := DeepLink(env.baseUrl, r.id),
      trailer := TrailerUrl(r.remoteTrailers),
      summary := r.overview.GetOr(""))
  }

  /** A card of the music list. */
  function MusicCard(r: MediaRecord, n: nat, env: Env): Card
    requires Readable(Music, r)
  {
    Card(
      title := r.name.value,
      episode := None,
      officialRating := None,
      airdate := Airdate(r, env.now),
      release := Some("Released: " + (match r.productionYear case Some(y) => IntToString(y) case None => "")),
      runtime := Runtime(r.runTimeTicks),
      number := Some(CodeOrYear(r)),
      genres := r.genres,
      studio := ArtistsText(r.artists),
      rating := StarRating(r.communityRating),
      poster := LocalOrRemote(r, "Primary", "poster", "music", "poster", n, env.failedWrites),
      fanart := LocalOrRemote(r, "Backdrop", "fanart", "music", "background", n, env.failedWrites),
      deepLink := DeepLink(env.baseUrl, r.id),
      trailer := TrailerUrl(r.remoteTrailers),
      summary := r.overview.GetOr(""))
  }

  /** A card of the list of any other type. */
  function OtherCard(r: MediaRecord, n: nat, env: Env): Card
    requires Readable(Other, r)
  {
    Card(
      title := r.name.value,
      episode := Some(r.officialRating.GetOr("")),
      officialRating := Some(r.officialRating.GetOr("")),
      airdate := Airdate(r, env.now),
      release := None,
      runtime := Runtime(r.runTimeTicks),
      number := Some(CodeOrYear(r)),
      genres := r.genres,
      studio := ArtistsText(r.artists),
      rating := Some(StarRatingOrBlank(r.communityRating)),
      poster := LocalOrRemote(r, "Primary", "poster", "other", "poster", n, env.failedWrites),
      fanart := LocalOrRemote(r, "Backdrop", "fanart", "other", "background", n, env.failedWrites),
      deepLink := DeepLink(env.baseUrl, r.id),
      trailer := TrailerUrl(r.remoteTrailers),
      summary := r.overview.GetOr(""))
  }

  function CardFor(kind: Kind, r: MediaRecord, n: nat, env: Env): Card
    requires Readable(kind, r)
  {
    match kind
    case TvEpisodes => EpisodeCard(r, n, env)
    case TvShow => ShowCard(r, n, env)
    case Movie => MovieCard(r, n, env)
    case Music => MusicCard(r, n, env)
    case Other => OtherCard(r, n, env)
  }

  predicate AllReadable(kind: Kind, data: seq<MediaRecord>)
  {
    forall i :: 0 <= i < |data| ==> Readable(kind, data[i])
  }

  /** A head entry followed by `f` of each element and its position counted from 1. */
  function Numbered<X>(head: Entry, xs: seq<X>, f: (X, nat) --> Entry): (es: seq<Entry>)
    requires forall i :: 0 <= i < |xs| ==> f.requires(xs[i], i + 1)
  {
    [head] + seq(|xs|, i requires 0 <= i < |xs| => f(xs[i], i + 1))
  }

  lemma {:induction false} NumberedAppend<X>(head: Entry, xs: seq<X>, x: X, f: (X, nat) --> Entry)
    requires forall i :: 0 <= i < |xs| ==> f.requires(xs[i], i + 1)
    requires f.requires(x, |xs| + 1)
    ensures forall i :: 0 <= i < |xs + [x]| ==> f.requires((xs + [x])[i], i + 1)
    ensures Numbered(head, xs + [x], f) == Numbered(head, xs, f) + [f(x, |xs| + 1)]
  {
    var ys := xs + [x];
    assert forall i :: 0 <= i < |ys| ==> ys[i] == if i < |xs| then xs[i] else x;
    var lhs := Numbered(head, ys, f);
    var rhs := Numbered(head, xs, f) + [f(x, |xs| + 1)];
    assert |lhs| == |rhs|;
    forall i | 0 <= i < |lhs|
      ensures lhs[i] == rhs[i]
    {
      if 0 < i <= |xs| {
        assert ys[i - 1] == xs[i - 1];
      }
    }
  }

  lemma {:induction false} NumberedShape<X>(head: Entry, xs: seq<X>, f: (X, nat) --> Entry)
    requires forall i :: 0 <= i < |xs| ==> f.requires(xs[i], i + 1)
    ensures var es := Numbered(head, xs, f);
      |es| == |xs| + 1 && es[0] == head && forall i :: 0 <= i < |xs| ==> es[i + 1] == f(xs[i], i + 1)
  {
  }

  /** The card of an item at a position. */
  function MakeCard(kind: Kind, env: Env): (MediaRecord, nat) --> Entry
  {
    (r: MediaRecord, n: nat) requires Readable(kind, r) => Item(CardFor(kind, r, n, env))
  }

  /** The `data` list of a kind: the template, then the card of each item in order, the i-th item at position i + 1. */
  function CardList(kind: Kind, data: seq<MediaRecord>, env: Env): seq<Entry>
    requires AllReadable(kind, data)
  {
    Numbered(Defaults(TemplateOf(kind)), data, MakeCard(kind, env))
  }

  /** Handling one more item appends its card at the position that is the list's length so far. */
  lemma {:induction false} CardListAppend(kind: Kind, data: seq<MediaRecord>, r: MediaRecord, env: Env)
    requires AllReadable(kind, data) && Readable(kind, r)
    ensures AllReadable(kind, data + [r])
    ensures |CardList(kind, data, env)| == |data| + 1
    ensures CardList(kind, data + [r], env) == CardList(kind, data, env) + [Item(CardFor(kind, r, |CardList(kind, data, env)|, env))]
  {
    var f := MakeCard(kind, env);
    NumberedAppend(Defaults(TemplateOf(kind)), data, r, f);
    assert f(r, |data| + 1) == Item(CardFor(kind, r, |data| + 1, env));
  }

  /** The list has the template first, then exactly one card per item in the items' order, the i-th item's card numbered i + 1. */
  lemma {:induction false} CardListShape(kind: Kind, data: seq<MediaRecord>, env: Env)
    requires AllReadable(kind, data)
    ensures var cards := CardList(kind, data, env);
      && |cards| == 1 + |data|
      && cards[0] == Defaults(TemplateOf(kind))
      && forall i :: 0 <= i < |data| ==> cards[i + 1] == Item(CardFor(kind, data[i], i + 1, env))
  {
    var f := MakeCard(kind, env);
    NumberedShape(Defaults(TemplateOf(kind)), data, f);
    forall i | 0 <= i < |data|
      ensures f(data[i], i + 1) == Item(CardFor(kind, data[i], i + 1, env))
    {
    }
  }

  /** The template follows the first item's type: music for any type but the three named ones. */
  lemma {:induction false} DispatchTemplate(itemType: string)
    ensures TemplateOf(Dispatch(itemType)) ==
      if itemType == "Episode" then TvDefault
      else if itemType == "Series" then TvAlternate
      else if itemType == "Movie" then MovieDefault
      else MusicDefault
  {
  }

  /** The optional keys of each kind of card, and what decides their presence. */
  lemma {:induction false} CardKeys(kind: Kind, r: MediaRecord, n: nat, env: Env)
    requires Readable(kind, r)
    ensures var c := CardFor(kind, r, n, env);
      match kind
      case TvEpisodes =>
        c.episode.Some? && c.release.Some? && (c.number.Some? <==> r.parentIndexNumber.Some?)
        && c.officialRating.None? && c.genres.None? && c.studio.None? && c.rating.None?
      case TvShow =>
        c.number.Some? && (c.release.Some? <==> r.premiereDate.Some?) && (c.genres.Some? <==> r.genres.Some?)
        && (c.rating.Some? <==> r.communityRating.Some?)
        && c.episode.None? && c.officialRating.None? && c.studio.None?
      case Movie =>
        (c.release.Some? <==> r.premiereDate.Some?) && (c.genres.Some? <==> r.genres.Some?)
        && (c.studio.Some? <==> r.studios.Some? && |r.studios.value| > 0)
        && (c.rating.Some? <==> r.communityRating.Some?)
        && c.episode.None? && c.officialRating.None? && c.number.None?
      case Music =>
        c.release.Some? && c.number.Some? && (c.genres.Some? <==> r.genres.Some?)
        && (c.studio.Some? <==> r.artists.Some? && |r.artists.value| > 0)
        && (c.rating.Some? <==> r.communityRating.Some?)
        && c.episode.None? && c.officialRating.None?
      case Other =>
        c.episode.Some? && c.officialRating.Some? && c.number.Some? && c.rating.Some?
        && (c.genres.Some? <==> r.genres.Some?)
        && (c.studio.Some? <==> r.artists.Some? && |r.artists.value| > 0)
        && c.release.None?
  {
  }

  /** Every kind fills the keys all cards share in the same way. */
  lemma {:induction false} CommonKeys(kind: Kind, r: MediaRecord, n: nat, env: Env)
    requires Readable(kind, r)
    ensures var c := CardFor(kind, r, n, env);
      c.airdate == Airdate(r, env.now) && c.runtime == Runtime(r.runTimeTicks)
      && c.deepLink == DeepLink(env.baseUrl, r.id) && c.trailer == TrailerUrl(r.remoteTrailers)
      && c.summary == r.overview.GetOr("")
  {
  }

  /**
   * The text of `release` and `rating`: an episode's release is "" without a
   * premiere date, music gives the production year after `Released: `, and
   * a rating is a star followed by the rating to one decimal (only the star
   * in the final branch when there is no rating).
   */
  lemma {:induction false} ReleaseAndRating(kind: Kind, r: MediaRecord, n: nat, env: Env)
    requires Readable(kind, r)
    ensures var c := CardFor(kind, r, n, env);
      match kind
      case TvEpisodes =>
        && (r.premiereDate.Some? ==> c.release == Some("Released " + IsoDate(r.premiereDate.value.date)))
        && (r.premiereDate.None? ==> c.release == Some(""))
      case TvShow | Movie =>
        && (r.premiereDate.Some? ==> c.release == Some("Released " + IsoDate(r.premiereDate.value.date)))
        && (r.communityRating.Some? ==> c.rating == Some(Star + " " + OneDecimal(r.communityRating.value.tenths)))
      case Music =>
        && (r.productionYear.Some? ==> c.release == Some("Released: " + IntToString(r.productionYear.value)))
        && (r.productionYear.None? ==> c.release == Some("Released: "))
        && (r.communityRating.Some? ==> c.rating == Some(Star + " " + OneDecimal(r.communityRating.value.tenths)))
      case Other =>
        && (r.communityRating.Some? ==> c.rating == Some(Star + " " + OneDecimal(r.communityRating.value.tenths)))
        && (r.communityRating.None? ==> c.rating == Some(Star + " "))
  {
    assert "Released: " + "" == "Released: ";
    assert Star + " " + "" == Star + " ";
  }

  /**
   * An episode's `number`: a code from which season and episode read back
   * when the episode index is known, `Season N Special` when only the
   * season is.
   */
  lemma {:induction false} EpisodeNumberText(r: MediaRecord, n: nat, env: Env)
    requires Readable(TvEpisodes, r)
    ensures var c := EpisodeCard(r, n, env);
      && (r.indexNumber.Some? ==>
            c.number == Some(Str(EpisodeCode(r.parentIndexNumber.value, r.indexNumber.value)))
            && ParseEpisodeCode(c.number.value.s) == Some((r.parentIndexNumber.value, r.indexNumber.value)))
      && (r.indexNumber.None? && r.parentIndexNumber.Some? ==>
            c.number == Some(Str("Season " + IntToString(r.parentIndexNumber.value) + " Special"))
            && IsPrefix("Season " + IntToString(r.parentIndexNumber.value), c.number.value.s)
            && IsSuffix(" Special", c.number.value.s))
      && (r.indexNumber.None? && r.parentIndexNumber.None? ==> c.number.None?)
  {
    if r.indexNumber.Some? {
      EpisodeCodeRoundTrip(r.parentIndexNumber.value, r.indexNumber.value);
    }
    if r.indexNumber.None? && r.parentIndexNumber.Some? {
      ConcatAffixes("Season " + IntToString(r.parentIndexNumber.value), " Special");
    }
  }


  /** A movie's `studio` is its first studio; a music or other card names at most the first three artists. */
  lemma {:induction false} StudioText(kind: Kind, r: MediaRecord, n: nat, env: Env)
    requires Readable(kind, r)
    ensures var c := CardFor(kind, r, n, env);
      && (kind == Movie && c.studio.Some? ==> c.studio.value == r.studios.value[0].name)
      && (kind in {Music, Other} && r.artists.Some? ==>
            var a := r.artists.value;
            && (|a| == 1 ==> c.studio == Some(a[0]))
            && (|a| == 2 ==> c.studio == Some(a[0] + ", " + a[1]))
            && (|a| >= 3 ==> c.studio == Some(a[0] + ", " + a[1] + ", " + a[2])))
  {
    if kind in {Music, Other} && r.artists.Some? {
      var a := r.artists.value;
      if |a| == 1 {
        assert PyPrefix(a, 3) == [a[0]];
      } else if |a| == 2 {
        assert PyPrefix(a, 3) == [a[0], a[1]];
        JoinSingleAndPair(", ", a[0], a[1]);
      } else if |a| >= 3 {
        var three := PyPrefix(a, 3);
        assert three == [a[0], a[1], a[2]];
        assert three[1..] == [a[1], a[2]];
        JoinSingleAndPair(", ", a[1], a[2]);
        assert Join(", ", three) == a[0] + ", " + (a[1] + ", " + a[2]);
        assert a[0] + ", " + (a[1] + ", " + a[2]) == a[0] + ", " + a[1] + ", " + a[2];
      }
    }
  }

  /** A series card counts seasons in the plural exactly when there is more than one, unless an episode code replaced the count. */
  lemma {:induction false} ShowNumberText(r: MediaRecord, n: nat, env: Env)
    requires Readable(TvShow, r)
    ensures var c := ShowCard(r, n, env);
      && (r.indexNumber.Some? ==> c.number == Some(Str(EpisodeCode(r.parentIndexNumber.value, r.indexNumber.value))))
      && (r.indexNumber.None? ==>
            c.number.Some? && c.number.value.Str?
            && IsPrefix(IntToString(r.childCount.value) + " season", c.number.value.s)
            && (IsSuffix("seasons", c.number.value.s) <==> r.childCount.value > 1))
  {
    if r.indexNumber.None? {
      SeasonCountPlural(r.childCount.value);
    }
  }

  /** The season count starts with the number and ends in "seasons" exactly when there is more than one. */
  lemma {:induction false} SeasonCountPlural(childCount: int)
    ensures IsPrefix(IntToString(childCount) + " season", SeasonCount(childCount))
    ensures IsSuffix("seasons", SeasonCount(childCount)) <==> childCount > 1
  {
    var k := IntToString(childCount);
    var t := SeasonCount(childCount);
    if childCount > 1 {
      assert t == (k + " season") + "s";
      ConcatAffixes(k + " season", "s");
      assert t == (k + " ") + "seasons";
      ConcatAffixes(k + " ", "seasons");
    } else {
      assert t == k + " season";
      ConcatAffixes(k, " season");
      assert t[|t| - 1] == 'n';
    }
  }

  /**
   * The episode list stores both images of a card in the same file: when
   * both byte buffers are present and the write succeeds, `poster` and
   * `fanart` point to one URL (and the second write replaces the first).
   */
  lemma {:induction false} EpisodeImagesShareFile(r: MediaRecord, n: nat, env: Env)
    requires Readable(TvEpisodes, r)
    requires "Primary_parent_bytes" in r.imageBytes && "Primary_bytes" in r.imageBytes
    ensures var c := EpisodeCard(r, n, env);
      c.poster == c.fanart && (c.poster.LocalImage? <==> ImageFilename("poster", "episode", n) !in env.failedWrites)
  {
    assert "Primary_parent" + "_bytes" == "Primary_parent_bytes";
    assert "Primary" + "_bytes" == "Primary_bytes";
  }

  /** The library part of the image file names of each kind. */
  function LibraryOf(kind: Kind): (lib: string)
    ensures NoUnderscore(lib)
  {
    match kind
    case TvEpisodes => "episode"
    case TvShow => "show"
    case Movie => "movie"
    case Music => "music"
    case Other => "other"
  }

  /** The image kind of the fanart file: episodes store their fanart under the poster name. */
  function FanartName(kind: Kind): (name: string)
    ensures NoUnderscore(name)
  {
    if kind == TvEpisodes then "poster" else "fanart"
  }

  /** `x`, when stored, is the file of image kind `u` in library `lib` at position `n`. */
  predicate StoredAs(x: ImageRef, u: string, lib: string, n: nat)
  {
    x.LocalImage? ==> x.url == LocalUrlPrefix + ImageFilename(u, lib, n)
  }

  /** Both stored images of a card are named after its kind and its position in the list. */
  lemma {:induction false} ImageFiles(kind: Kind, r: MediaRecord, n: nat, env: Env)
    requires Readable(kind, r)
    ensures var c := CardFor(kind, r, n, env);
      StoredAs(c.poster, "poster", LibraryOf(kind), n) && StoredAs(c.fanart, FanartName(kind), LibraryOf(kind), n)
  {
  }

  /** Two image references do not point to the same stored file. */
  predicate Apart(x: ImageRef, y: ImageRef)
  {
    x.LocalImage? && y.LocalImage? ==> x.url != y.url
  }

  /** Two cards of one list never share a stored file: neither poster against poster, nor any pairing with fanart. */
  lemma {:induction false} ImagesDistinct(kind: Kind, data: seq<MediaRecord>, env: Env, i: nat, j: nat)
    requires AllReadable(kind, data) && i < |data| && j < |data| && i != j
    ensures var ci := CardFor(kind, data[i], i + 1, env);
      var cj := CardFor(kind, data[j], j + 1, env);
      && Apart(ci.poster, cj.poster) && Apart(ci.poster, cj.fanart)
      && Apart(ci.fanart, cj.poster) && Apart(ci.fanart, cj.fanart)
  {
    CardPairApart(kind, data[i], i + 1, data[j], j + 1, env);
  }

  /** The cards built from any two records at two different positions keep their images apart. */
  lemma {:induction false} CardPairApart(kind: Kind, rm: MediaRecord, m: nat, rn: MediaRecord, n: nat, env: Env)
    requires Readable(kind, rm) && Readable(kind, rn) && m != n
    ensures var cm := CardFor(kind, rm, m, env);
      var cn := CardFor(kind, rn, n, env);
      && Apart(cm.poster, cn.poster) && Apart(cm.poster, cn.fanart)
      && Apart(cm.fanart, cn.poster) && Apart(cm.fanart, cn.fanart)
  {
    var cm := CardFor(kind, rm, m, env);
    var cn := CardFor(kind, rn, n, env);
    ImageFiles(kind, rm, m, env);
    ImageFiles(kind, rn, n, env);
    CardsApart(cm.poster, cm.fanart, cn.poster, cn.fanart, FanartName(kind), LibraryOf(kind), m, n);
  }

  /** The images of the cards at positions `m` and `n` are pairwise apart. */
  lemma {:induction false} CardsApart(pm: ImageRef, fm: ImageRef, pn: ImageRef, fn: ImageRef, fanart: string, lib: string, m: nat, n: nat)
    requires NoUnderscore(fanart) && NoUnderscore(lib) && m != n
    requires StoredAs(pm, "poster", lib, m) && StoredAs(fm, fanart, lib, m)
    requires StoredAs(pn, "poster", lib, n) && StoredAs(fn, fanart, lib, n)
    ensures Apart(pm, pn) && Apart(pm, fn) && Apart(fm, pn) && Apart(fm, fn)
  {
    assert NoUnderscore("poster");
    UrlsApart(pm, pn, "poster", "poster", lib, m, n);
    UrlsApart(pm, fn, "poster", fanart, lib, m, n);
    UrlsApart(fm, pn, fanart, "poster", lib, m, n);
    UrlsApart(fm, fn, fanart, fanart, lib, m, n);
  }

  lemma {:induction false} UrlsApart(x: ImageRef, y: ImageRef, ux: string, uy: string, lib: string, m: nat, n: nat)
    requires NoUnderscore(ux) && NoUnderscore(uy) && NoUnderscore(lib) && m != n
    requires StoredAs(x, ux, lib, m) && StoredAs(y, uy, lib, n)
    ensures Apart(x, y)
  {
    ImageFilenameInjective(ux, lib, m, uy, lib, n);
    var fm := ImageFilename(ux, lib, m);
    var fn := ImageFilename(uy, lib, n);
    assert (LocalUrlPrefix + fm)[|LocalUrlPrefix|..] == fm;
    assert (LocalUrlPrefix + fn)[|LocalUrlPrefix|..] == fn;
  }
}

=== FILE: records.dfy ===
/**
 * The JSON objects the media server returns, decoded into typed records.
 * A key the code reads with `record[key]` is a plain field when every item
 * carries it (Id, Type, DateCreated) and an `Option` otherwise; a key the
 * code tests with `in` or reads with `.get` is an `Option`.
 */
module Records {
  import opened Wrappers

  /** The calendar date of an ISO 8601 timestamp, as `isoparse(s).date()` gives it. */
  datatype CalendarDate = CalendarDate(year: nat, month: nat, day: nat)

  /** A `PremiereDate`: the ISO 8601 text as sent and its calendar date. */
  datatype Timestamp = Timestamp(raw: string, date: CalendarDate)

  /** A `CommunityRating` (a float with one decimal place), counted in tenths. */
  datatype Rating = Rating(tenths: int)

  /** One element of `RemoteTrailers`; its `Url` key may be missing. */
  datatype Trailer = Trailer(url: Option<string>)

  /** One element of `Studios`. */
  datatype Studio = Studio(name: string)

  /**
   * One item of the "latest items" list. `tvdbId` is `ProviderIds.Tvdb`.
   * `imageBytes` holds the `"<ImageType>_bytes"` keys whose byte buffers are
   * non-empty; the bytes themselves play no part in the formatting.
   */
  datatype MediaRecord = MediaRecord(
    id: string,
    itemType: string,
    name: Option<string>,
    seriesName: Option<string>,
    premiereDate: Option<Timestamp>,
    runTimeTicks: Option<int>,
    genres: Option<seq<string>>,
    studios: Option<seq<Studio>>,
    artists: Option<seq<string>>,
    communityRating: Option<Rating>,
    childCount: Option<int>,
    parentIndexNumber: Option<int>,
    indexNumber: Option<int>,
    productionYear: Option<int>,
    officialRating: Option<string>,
    tvdbId: Option<string>,
    remoteTrailers: Option<seq<Trailer>>,
    overview: Option<string>,
    dateCreated: string,
    imageBytes: set<string>)

  /** One library view listed by `/UserViews`. */
  datatype ViewCategory = ViewCategory(id: string, name: string, collectionType: Option<string>)
}

=== FILE: sensor.dfy ===
/**
 * The sensor entity (`JellyfinUpcomingMediaSensor`): its identity, its
 * refresh from the client, and the state attributes it builds from the
 * items of its last refresh.
 */
module Sensor {
  import opened Wrappers
  import opened Text
  import opened Records
  import opened Sorting
  import opened Client
  import opened Cards
  import opened Formatter
  import opened Setup

  /** A character of the regular-expression class `\w` (any non-ASCII character is counted as one). */
  predicate IsWordChar(c: char)
  {
    ('a' <= c <= 'z') || ('A' <= c <= 'Z') || ('0' <= c <= '9') || c == '_' || c as int >= 128
  }

  predicate AllWord(s: string) { forall i :: 0 <= i < |s| ==> IsWordChar(s[i]) }

  /** What is left once a leading run of non-word characters is dropped. */
  function DropNonWord(s: string): (r: string)
    ensures |r| <= |s| && (r == [] || IsWordChar(r[0]))
  {
    if s == [] || IsWordChar(s[0]) then s else DropNonWord(s[1..])
  }

  /** `re.sub(r"\W+", "_", s)`: every maximal run of non-word characters becomes one underscore. */
  function CollapseNonWord(s: string): (r: string)
    ensures AllWord(r) && |r| <= |s|
    decreases |s|
  {
    if s == [] then []
    else if IsWordChar(s[0]) then [s[0]] + CollapseNonWord(s[1..])
    else "_" + CollapseNonWord(DropNonWord(s[1..]))
  }

  /** `re.sub(r"\_$", "", s)`: one trailing underscore is removed. */
  function DropTrailingUnderscore(s: string): (r: string)
    ensures s != [] && s[|s| - 1] == '_' ==> r + "_" == s
    ensures s == [] || s[|s| - 1] != '_' ==> r == s
    ensures AllWord(s) ==> AllWord(r)
  {
    if s != [] && s[|s| - 1] == '_' then s[..|s| - 1] else s
  }

  const SlugPrefix := "jellyfin_latest_"

  /** The object id of the sensor's entity id: the category name made lower-case and word-only. */
  function EntitySlug(categoryName: string): (slug: string)
    ensures IsPrefix(SlugPrefix, slug)
    ensures AllWord(slug) && NoUpper(slug)
    ensures |slug| == |SlugPrefix| + |DropTrailingUnderscore(CollapseNonWord(categoryName))|
    ensures forall i :: |SlugPrefix| <= i < |slug| ==>
      i - |SlugPrefix| < |CollapseNonWord(categoryName)| && slug[i] == LowerChar(CollapseNonWord(categoryName)[i - |SlugPrefix|])
  {
    var w := CollapseNonWord(categoryName);
    SlugChars(DropTrailingUnderscore(w));
    SlugLowers(w);
    SlugPrefix + Lower(DropTrailingUnderscore(w))
  }

  /** After the prefix, the slug is `w` lower-cased character by character, less a final underscore. */
  lemma {:induction false} SlugLowers(w: string)
    ensures var slug := SlugPrefix + Lower(DropTrailingUnderscore(w));
      && IsPrefix(SlugPrefix, slug)
      && |slug| == |SlugPrefix| + |DropTrailingUnderscore(w)|
      && forall i :: |SlugPrefix| <= i < |slug| ==> i - |SlugPrefix| < |w| && slug[i] == LowerChar(w[i - |SlugPrefix|])
  {
    var d := DropTrailingUnderscore(w);
    var slug := SlugPrefix + Lower(d);
    ConcatAffixes(SlugPrefix, Lower(d));
    assert |d| <= |w| && forall k :: 0 <= k < |d| ==> d[k] == w[k] by {
      if w != [] && w[|w| - 1] == '_' {
        assert d + "_" == w;
        assert forall k :: 0 <= k < |d| ==> w[k] == (d + "_")[k];
      }
    }
    forall i | |SlugPrefix| <= i < |slug|
      ensures i - |SlugPrefix| < |w| && slug[i] == LowerChar(w[i - |SlugPrefix|])
    {
      assert slug[i] == Lower(d)[i - |SlugPrefix|];
    }
  }

  predicate NoUpper(s: string) { forall i :: 0 <= i < |s| ==> !('A' <= s[i] <= 'Z') }

  lemma {:induction false} SlugChars(w: string)
    requires AllWord(w)
    ensures AllWord(SlugPrefix + Lower(w)) && NoUpper(SlugPrefix + Lower(w))
  {
    var body := Lower(w);
    assert AllWord(body);
    assert AllWord(SlugPrefix) && NoUpper(SlugPrefix);
    var slug := SlugPrefix + body;
    forall i | 0 <= i < |slug|
      ensures IsWordChar(slug[i]) && !('A' <= slug[i] <= 'Z')
    {
      if i < |SlugPrefix| {
        assert slug[i] == SlugPrefix[i];
      } else {
        assert slug[i] == body[i - |SlugPrefix|];
      }
    }
  }

  /** A name already made of lower-case word characters, not ending in an underscore, is kept as it is. */
  lemma {:induction false} EntitySlugOfCleanName(categoryName: string)
    requires AllWord(categoryName) && forall i :: 0 <= i < |categoryName| ==> !('A' <= categoryName[i] <= 'Z')
    requires categoryName == [] || categoryName[|categoryName| - 1] != '_'
    ensures EntitySlug(categoryName) == SlugPrefix + categoryName
  {
    CollapseWordOnly(categoryName);
    assert Lower(categoryName) == categoryName;
  }

  /** A name made only of word characters is not changed by the collapse. */
  lemma {:induction false} CollapseWordOnly(w: string)
    requires AllWord(w)
    ensures CollapseNonWord(w) == w
  {
    CollapseWordPrefix(w, []);
    assert w + [] == w;
  }

  /** A name whose words are separated by runs of spaces and punctuation gets one underscore per run. */
  lemma {:induction false} CollapseTwoWords(first: string, gap: string, second: string)
    requires first != [] && second != [] && gap != []
    requires AllWord(first) && AllWord(second) && forall i :: 0 <= i < |gap| ==> !IsWordChar(gap[i])
    ensures CollapseNonWord(first + gap + second) == first + "_" + second
  {
    var tail := gap + second;
    assert first + gap + second == first + tail;
    CollapseWordPrefix(first, tail);
    CollapseGap(gap, second);
    CollapseWordOnly(second);
    assert first + ("_" + second) == first + "_" + second;
  }

  /** Word characters are copied as they are. */
  lemma {:induction false} CollapseWordPrefix(w: string, rest: string)
    requires AllWord(w)
    ensures CollapseNonWord(w + rest) == w + CollapseNonWord(rest)
  {
    if w != [] {
      var s := w + rest;
      assert s[0] == w[0] && IsWordChar(s[0]);
      assert CollapseNonWord(s) == [w[0]] + CollapseNonWord(s[1..]);
      assert s[1..] == w[1..] + rest;
      CollapseWordPrefix(w[1..], rest);
      assert [w[0]] + (w[1..] + CollapseNonWord(rest)) == w + CollapseNonWord(rest);
    } else {
      assert w + rest == rest;
    }
  }

  /**
   * A whole run of non-word characters, up to a word character or the end,
   * becomes one underscore. With `CollapseWordPrefix` and the empty name
   * this fixes the result on every name.
   */
  lemma {:induction false} CollapseGap(gap: string, rest: string)
    requires gap != [] && forall i :: 0 <= i < |gap| ==> !IsWordChar(gap[i])
    requires rest == [] || IsWordChar(rest[0])
    ensures CollapseNonWord(gap + rest) == "_" + CollapseNonWord(rest)
  {
    assert (gap + rest)[0] == gap[0];
    assert (gap + rest)[1..] == gap[1..] + rest;
    DropAll(gap[1..], rest);
  }

  lemma {:induction false} DropAll(gap: string, rest: string)
    requires forall i :: 0 <= i < |gap| ==> !IsWordChar(gap[i])
    requires rest == [] || IsWordChar(rest[0])
    ensures DropNonWord(gap + rest) == rest
  {
    if gap == [] {
      assert gap + rest == rest;
    } else {
      assert (gap + rest)[0] == gap[0];
      assert (gap + rest)[1..] == gap[1..] + rest;
      DropAll(gap[1..], rest);
    }
  }

  /** The order key of a grouped refresh, `DateCreated`. */
  function CreatedKey(r: MediaRecord): string { r.dateCreated }

  /** How many requests a refresh makes: one per library id. */
  function RequestCount(id: CategoryId): nat
  {
    match id
    case Single(_) => 1
    case Many(ids) => |ids|
  }

  /** The position of the first response `get_data` turns into None, or the number of responses. */
  function FirstFailure(rs: seq<Response<seq<MediaRecord>>>, maxItems: int): (k: nat)
    ensures k <= |rs|
    ensures forall j :: 0 <= j < k ==> Fetched(rs[j], maxItems).Some?
    ensures k < |rs| ==> Fetched(rs[k], maxItems).None?
  {
    if rs == [] then 0
    else if Fetched(rs[0], maxItems).None? then 0
    else 1 + FirstFailure(rs[1..], maxItems)
  }

  /** The items of the first `k` responses, in request order. */
  function Gathered(rs: seq<Response<seq<MediaRecord>>>, k: nat, maxItems: int): seq<MediaRecord>
    requires k <= FirstFailure(rs, maxItems)
  {
    if k == 0 then [] else Gathered(rs, k - 1, maxItems) + Fetched(rs[k - 1], maxItems).value
  }

  /** The client's `data` after a successful `get_data` for each of the first `k` ids in turn. */
  function StoredAfter(m: map<string, Stored>, ids: seq<string>, rs: seq<Response<seq<MediaRecord>>>, k: nat, maxItems: int): map<string, Stored>
    requires |ids| == |rs| && k <= FirstFailure(rs, maxItems)
  {
    if k == 0 then m
    else StoredAfter(m, ids, rs, k - 1, maxItems)[ids[k - 1] := Items(Fetched(rs[k - 1], maxItems).value)]
  }

  /** Every fetched item is in the merged list, and every merged item was fetched. */
  lemma {:induction false} GatheredMembers(rs: seq<Response<seq<MediaRecord>>>, k: nat, maxItems: int)
    requires k <= FirstFailure(rs, maxItems)
    ensures forall x :: x in Gathered(rs, k, maxItems) <==> exists j :: 0 <= j < k && x in Fetched(rs[j], maxItems).value
  {
    if k > 0 {
      GatheredMembers(rs, k - 1, maxItems);
    }
  }

  /**
   * A grouped refresh lists the newest items first, loses and adds none,
   * and keeps items created at the same instant in the order they were
   * fetched (Python's sort is stable, also in reverse).
   */
  lemma {:induction false} MergedNewestFirst(items: seq<MediaRecord>)
    ensures var merged := SortBy(items, CreatedKey, true);
      Sorted(merged, CreatedKey, true)
      && multiset(merged) == multiset(items)
      && forall k :: KeyFilter(merged, CreatedKey, k) == KeyFilter(items, CreatedKey, k)
  {
    SortBySorted(items, CreatedKey, true);
    forall k
      ensures KeyFilter(SortBy(items, CreatedKey, true), CreatedKey, k) == KeyFilter(items, CreatedKey, k)
    {
      SortByStable(items, CreatedKey, true, k);
    }
  }

  class UpcomingMediaSensor {
    const client: JellyfinClient
    /** `_state`: None until the first refresh, then "Online" or "error". */
    var state: Option<string>
    /** The items of the last successful refresh. */
    var data: seq<MediaRecord>
    const useBackdrop: bool
    const categoryName: string
    const categoryId: CategoryId
    /** The part of the entity id after `sensor.`. */
    const entitySlug: string

    /** A grouped sensor is named after its library type, any other after its library. */
    constructor (client: JellyfinClient, config: SensorConfig, groupLibraries: bool, useBackdrop: bool)
      ensures this.client == client && this.useBackdrop == useBackdrop
      ensures categoryName == if groupLibraries then config.categoryType else config.categoryName
      ensures categoryId == config.categoryId
      ensures entitySlug == EntitySlug(categoryName)
      ensures state == None && data == []
    {
      this.client := client;
      state := None;
      data := [];
      this.useBackdrop := useBackdrop;
      categoryName := if groupLibraries then config.categoryType else config.categoryName;
      categoryId := config.categoryId;
      entitySlug := EntitySlug(if groupLibraries then config.categoryType else config.categoryName);
    }

    /** The `name` property. */
    function Name(): (n: string)
      ensures IsPrefix("Latest ", n) && IsSuffix(" on Jellyfin", n)
      ensures |n| == |"Latest "| + |categoryName| + |" on Jellyfin"|
      ensures n[|"Latest "|..|n| - |" on Jellyfin"|] == categoryName
    {
      ConcatAffixes3("Latest ", categoryName, " on Jellyfin");
      "Latest " + categoryName + " on Jellyfin"
    }

    /** The `data` list of a kind: the template, then one card per item, built in one pass. */
    method CardsOf(kind: Kind, env: Env) returns (cardJson: seq<Entry>)
      requires AllReadable(kind, data)
      ensures cardJson == CardList(kind, data, env)
    {
      cardJson := [Defaults(TemplateOf(kind))];
      for i := 0 to |data|
        invariant AllReadable(kind, data[..i])
        invariant cardJson == CardList(kind, data[..i], env)
      {
        CardListAppend(kind, data[..i], data[i], env);
        assert data[..i + 1] == data[..i] + [data[i]];
        cardJson := cardJson + [Item(CardFor(kind, data[i], |cardJson|, env))];
      }
      assert data[..|data|] == data;
    }

    /** What a card needs besides its item, for this sensor's client. */
    function EnvOf(now: string, failedWrites: set<string>): Env
    {
      Env(client.BaseUrl(), now, failedWrites)
    }

    /** `handle_tv_episodes` */
    method HandleTvEpisodes(now: string, failedWrites: set<string>) returns (attrs: Attributes)
      requires AllReadable(TvEpisodes, data)
      ensures attrs == Attributes(CardList(TvEpisodes, data, EnvOf(now, failedWrites)), Attribution)
    {
      var cards := CardsOf(TvEpisodes, EnvOf(now, failedWrites));
      attrs := Attributes(cards, Attribution);
    }

    /** `handle_tv_show` */
    method HandleTvShow(now: string, failedWrites: set<string>) returns (attrs: Attributes)
      requires AllReadable(TvShow, data)
      ensures attrs == Attributes(CardList(TvShow, data, EnvOf(now, failedWrites)), Attribution)
    {
      var cards := CardsOf(TvShow, EnvOf(now, failedWrites));
      attrs := Attributes(cards, Attribution);
    }

    /** `handle_movie` */
    method HandleMovie(now: string, failedWrites: set<string>) returns (attrs: Attributes)
      requires AllReadable(Movie, data)
      ensures attrs == Attributes(CardList(Movie, data, EnvOf(now, failedWrites)), Attribution)
    {
      var cards := CardsOf(Movie, EnvOf(now, failedWrites));
      attrs := Attributes(cards, Attribution);
    }

    /** `handle_music` */
    method HandleMusic(now: string, failedWrites: set<string>) returns (attrs: Attributes)
      requires AllReadable(Music, data)
      ensures attrs == Attributes(CardList(Music, data, EnvOf(now, failedWrites)), Attribution)
    {
      var cards := CardsOf(Music, EnvOf(now, failedWrites));
      attrs := Attributes(cards, Attribution);
    }

    /** The final branch of `extra_state_attributes`, for items of any other type. */
    method HandleOther(now: string, failedWrites: set<string>) returns (attrs: Attributes)
      requires AllReadable(Other, data)
      ensures attrs == Attributes(CardList(Other, data, EnvOf(now, failedWrites)), Attribution)
    {
      var cards := CardsOf(Other, EnvOf(now, failedWrites));
      attrs := Attributes(cards, Attribution);
    }

    /**
     * `extra_state_attributes`: nothing before any item is known, otherwise
     * the list of the kind chosen by the first item's type. As written, that
     * choice is never the final branch.
     */
    method ExtraStateAttributes(now: string, failedWrites: set<string>) returns (attrs: Attributes)
      requires |data| > 0 ==> AllReadable(Dispatch(data[0].itemType), data)
      ensures |data| == 0 <==> attrs == NoAttributes
      ensures |data| > 0 ==> attrs == Attributes(CardList(Dispatch(data[0].itemType), data, EnvOf(now, failedWrites)), Attribution)
    {
      if |data| == 0 {
        return NoAttributes;
      }
      var itemType := data[0].itemType;
      if itemType == "Episode" {
        attrs := HandleTvEpisodes(now, failedWrites);
      } else if itemType == "Series" {
        attrs := HandleTvShow(now, failedWrites);
      } else if itemType == "Movie" {
        attrs := HandleMovie(now, failedWrites);
      } else if itemType == "MusicAlbum" || Truthy("Audio") {
        attrs := HandleMusic(now, failedWrites);
      } else {
        assert false;
      }
    }

    /**
     * `update`, given the response to each `get_data` request in order.
     * `raised` is the `TypeError` a grouped refresh raises when one of its
     * requests fails: iterating over None.
     */
    method Update(responses: seq<Response<seq<MediaRecord>>>) returns (raised: bool)
      requires |responses| == RequestCount(categoryId)
      modifies this, client
      ensures categoryId.Single? ==>
        var got := Fetched(responses[0], client.maxItems);
        && !raised
        && (got.Some? ==> state == Some(Online) && data == got.value)
        && (got.None? ==> state == Some("error") && data == old(data))
        && client.data == (if got.Some? then old(client.data)[categoryId.id := Items(got.value)] else old(client.data))
        && client.state == Some(if got.Some? then Online else Unreachable(client.host))
      ensures categoryId.Many? ==>
        var k := FirstFailure(responses, client.maxItems);
        && (raised <==> k < |responses|)
        && (raised ==> state == old(state) && data == old(data))
        && (!raised ==> state == Some(Online) && data == SortBy(Gathered(responses, k, client.maxItems), CreatedKey, true))
        && client.data == StoredAfter(old(client.data), categoryId.ids, responses, k, client.maxItems)
        && client.state == (if k < |responses| then Some(Unreachable(client.host)) else if k == 0 then old(client.state) else Some(Online))
    {
      if categoryId.Single? {
        var got := client.GetData(categoryId.id, responses[0]);
        if got.Some? {
          state := Some(Online);
          data := got.value;
        } else {
          state := Some("error");
        }
        return false;
      }
      var merged := FetchGroup(categoryId.ids, responses);
      if merged.None? {
        return true;
      }
      data := SortBy(merged.value, CreatedKey, true);
      state := Some(Online);
      raised := false;
    }

    /**
     * The loop of a grouped refresh: `get_data` for each id in turn, every
     * item appended to one list; None stands for the `TypeError` raised at
     * the first failed request.
     */
    method FetchGroup(ids: seq<string>, responses: seq<Response<seq<MediaRecord>>>) returns (merged: Option<seq<MediaRecord>>)
      requires |responses| == |ids|
      modifies client
      ensures var k := FirstFailure(responses, client.maxItems);
        && (merged.Some? <==> k == |ids|)
        && (merged.Some? ==> merged.value == Gathered(responses, k, client.maxItems))
        && client.data == StoredAfter(old(client.data), ids, responses, k, client.maxItems)
        && client.state == (if k < |ids| then Some(Unreachable(client.host)) else if k == 0 then old(client.state) else Some(Online))
    {
      var acc: seq<MediaRecord> := [];
      var k := 0;
      while k < |ids|
        invariant 0 <= k <= |ids|
        invariant k <= FirstFailure(responses, client.maxItems)
        invariant acc == Gathered(responses, k, client.maxItems)
        invariant client.data == StoredAfter(old(client.data), ids, responses, k, client.maxItems)
        invariant client.state == if k == 0 then old(client.state) else Some(Online)
      {
        var got := client.GetData(ids[k], responses[k]);
        if got.None? {
          assert k == FirstFailure(responses, client.maxItems);
          return None;
        }
        assert k < FirstFailure(responses, client.maxItems);
        acc := AppendAll(acc, got.value);
        k := k + 1;
      }
      merged := Some(acc);
    }
  }

  /** `for res in items: data.append(res)` */
  method AppendAll(acc: seq<MediaRecord>, items: seq<MediaRecord>) returns (r: seq<MediaRecord>)
    ensures r == acc + items
  {
    r := acc;
    for j := 0 to |items|
      invariant r == acc + items[..j]
    {
      r := r + [items[j]];
    }
    assert items[..|items|] == items;
  }
}

=== FILE: setup.dfy ===
/**
 * `setup_platform`: from the server's list of library views to one sensor
 * configuration per kept library, or, with `group_libraries`, one per
 * library type holding the ids of all libraries of that type.
 */
module Setup {
  import opened Wrappers
  import opened Text
  import opened Records
  import opened Sorting

  /** `DICT_LIBRARY_TYPES`: the supported collection types and their display names. */
  const LibraryTypes: map<string, string> := map["tvshows" := "TV Shows", "movies" := "Movies", "music" := "Music"]

  /** `CategoryId` of a sensor: one library id, or the list of ids of a group. */
  datatype CategoryId = Single(id: string) | Many(ids: seq<string>)

  /** What each sensor is built from: `CategoryName`, `CategoryId` and the display name of its `CollectionType`. */
  datatype SensorConfig = SensorConfig(categoryName: string, categoryId: CategoryId, categoryType: string)

  predicate Supported(c: ViewCategory)
  {
    c.collectionType.Some? && c.collectionType.value in LibraryTypes
  }

  /** The order key of the grouping, `CollectionType`. */
  function TypeKey(c: ViewCategory): string
  {
    c.collectionType.GetOr("")
  }

  /** Python's `filter`: the elements that pass, in their order. */
  function Filter(s: seq<ViewCategory>, p: ViewCategory -> bool): (r: seq<ViewCategory>)
    ensures |r| <= |s|
    ensures forall x :: x in r <==> x in s && p(x)
  {
    if s == [] then [] else (if p(s[0]) then [s[0]] else []) + Filter(s[1..], p)
  }

  /**
   * `filter` keeps order and repeats: filtering a concatenation filters each
   * part in turn, and a single element stays exactly when it passes.
   */
  lemma {:induction false} FilterAppend(a: seq<ViewCategory>, b: seq<ViewCategory>, p: ViewCategory -> bool)
    ensures Filter(a + b, p) == Filter(a, p) + Filter(b, p)
    ensures |a| == 1 ==> Filter(a, p) == if p(a[0]) then a else []
  {
    if a != [] {
      assert (a + b)[0] == a[0] && (a + b)[1..] == a[1..] + b;
      FilterAppend(a[1..], b, p);
    } else {
      assert a + b == b;
    }
    if |a| == 1 {
      assert a[1..] == [];
    }
  }

  /** The libraries that get sensors: supported types, and only the named ones when `include` is non-empty. */
  function Kept(views: seq<ViewCategory>, included: seq<string>): (cats: seq<ViewCategory>)
    ensures forall c :: c in cats <==> c in views && Supported(c) && (included == [] || c.name in included)
  {
    var supported := Filter(views, Supported);
    if included != [] then Filter(supported, (c: ViewCategory) => c.name in included) else supported
  }

  function Ids(cs: seq<ViewCategory>): (ids: seq<string>)
    ensures |ids| == |cs| && forall i :: 0 <= i < |cs| ==> ids[i] == cs[i].id
  {
    seq(|cs|, i requires 0 <= i < |cs| => cs[i].id)
  }

  /** `list(set(ids))`: each id once. */
  function Dedup(ids: seq<string>): (r: seq<string>)
    ensures forall x :: x in r <==> x in ids
    ensures forall i, j :: 0 <= i < j < |r| ==> r[i] != r[j]
  {
    if ids == [] then []
    else
      var rest := Dedup(ids[1..]);
      if ids[0] in rest then rest else [ids[0]] + rest
  }

  /** `groupby(sorted(cats, key=CollectionType), CollectionType)`: the runs of one type each. */
  function Groups(cats: seq<ViewCategory>): seq<seq<ViewCategory>>
  {
    Runs(SortBy(cats, TypeKey, false), TypeKey)
  }

  /**
   * Grouping puts every library of one type in one group, in the server's
   * order; no two groups share a type, and every library's type has a group.
   */
  lemma {:induction false} GroupsByType(cats: seq<ViewCategory>)
    ensures var gs := Groups(cats);
      (forall i :: 0 <= i < |gs| ==> gs[i] == KeyFilter(cats, TypeKey, TypeKey(gs[i][0])))
      && (forall i, j :: 0 <= i < j < |gs| ==> TypeKey(gs[i][0]) != TypeKey(gs[j][0]))
      && (forall c :: c in cats ==> exists i :: 0 <= i < |gs| && TypeKey(gs[i][0]) == TypeKey(c))
  {
    var sorted := SortBy(cats, TypeKey, false);
    var gs := Groups(cats);
    SortBySorted(cats, TypeKey, false);
    RunsAreKeyFilters(sorted, TypeKey);
    forall i | 0 <= i < |gs|
      ensures gs[i] == KeyFilter(cats, TypeKey, TypeKey(gs[i][0]))
    {
      assert gs[i] == Runs(sorted, TypeKey)[i];
      assert gs[i] == KeyFilter(sorted, TypeKey, TypeKey(gs[i][0]));
      SortByStable(cats, TypeKey, false, TypeKey(gs[i][0]));
    }
    RunsIncreasing(sorted, TypeKey);
    forall i, j | 0 <= i < j < |gs|
      ensures TypeKey(gs[i][0]) != TypeKey(gs[j][0])
    {
      assert StrLt(TypeKey(gs[i][0]), TypeKey(gs[j][0]));
      StrLtIrreflexive(TypeKey(gs[i][0]));
    }
    RunsCover(sorted, TypeKey);
    forall c | c in cats
      ensures exists i :: 0 <= i < |gs| && TypeKey(gs[i][0]) == TypeKey(c)
    {
      assert c in multiset(sorted);
      var m :| 0 <= m < |sorted| && sorted[m] == c;
    }
  }

  /** The first library of each group is one of the kept libraries. */
  lemma {:induction false} GroupHeadsKept(cats: seq<ViewCategory>)
    ensures forall i :: 0 <= i < |Groups(cats)| ==> Groups(cats)[i][0] in cats
  {
    var sorted := SortBy(cats, TypeKey, false);
    SortBySorted(cats, TypeKey, false);
    RunHeadsIn(sorted, TypeKey);
    forall i | 0 <= i < |Groups(cats)|
      ensures Groups(cats)[i][0] in cats
    {
      assert Groups(cats)[i][0] in multiset(sorted);
    }
  }

  /** The configuration of a group: its first library's dict with `Id` replaced by the ids of all its libraries. */
  function GroupConfig(g: seq<ViewCategory>): SensorConfig
    requires g != [] && Supported(g[0])
  {
    SensorConfig(g[0].name, Many(Dedup(Ids(g))), LibraryTypes[TypeKey(g[0])])
  }

  /** A group's ids are those of its libraries. */
  lemma {:induction false} GroupConfigIds(g: seq<ViewCategory>)
    requires g != [] && Supported(g[0])
    ensures forall x :: x in GroupConfig(g).categoryId.ids <==> exists c :: c in g && c.id == x
  {
    forall x
      ensures x in Ids(g) <==> exists c :: c in g && c.id == x
    {
      if x in Ids(g) {
        var k :| 0 <= k < |g| && Ids(g)[k] == x;
        assert g[k] in g;
      }
      if exists c :: c in g && c.id == x {
        var c :| c in g && c.id == x;
        var k :| 0 <= k < |g| && g[k] == c;
        assert Ids(g)[k] == x;
      }
    }
  }

  predicate AllSupported(cats: seq<ViewCategory>)
  {
    forall c :: c in cats ==> Supported(c)
  }

  /** One configuration per group, in the order of the sorted types. */
  function GroupConfigs(cats: seq<ViewCategory>): (configs: seq<SensorConfig>)
    requires AllSupported(cats)
    ensures |configs| == |Groups(cats)|
    ensures forall i :: 0 <= i < |configs| ==> configs[i].categoryType in LibraryTypes.Values
  {
    var gs := Groups(cats);
    GroupHeadsKept(cats);
    seq(|gs|, i requires 0 <= i < |gs| => GroupConfig(gs[i]))
  }

  /** The sensor configurations `setup_platform` creates, in the order the sensors are added. */
  function Configs(views: seq<ViewCategory>, included: seq<string>, groupLibraries: bool): (configs: seq<SensorConfig>)
    ensures forall i :: 0 <= i < |configs| ==> configs[i].categoryType in LibraryTypes.Values
    ensures !groupLibraries ==> |configs| == |Kept(views, included)|
    ensures groupLibraries ==> |configs| == |Groups(Kept(views, included))|
  {
    var cats := Kept(views, included);
    if groupLibraries then GroupConfigs(cats)
    else
      seq(|cats|, i requires 0 <= i < |cats| =>
        SensorConfig(cats[i].name, Single(cats[i].id), LibraryTypes[TypeKey(cats[i])]))
  }

  /** Without grouping: one sensor per kept library, in the server's order, named and typed after it. */
  lemma {:induction false} UngroupedConfigs(views: seq<ViewCategory>, included: seq<string>)
    ensures var cats := Kept(views, included);
      var configs := Configs(views, included, false);
      forall i :: 0 <= i < |configs| ==>
        configs[i].categoryId == Single(cats[i].id) && configs[i].categoryName == cats[i].name
        && Supported(cats[i]) && configs[i].categoryType == LibraryTypes[cats[i].collectionType.value]
  {
  }

  /** No two groups have the same type. */
  lemma {:induction false} GroupTypesDistinct(cats: seq<ViewCategory>)
    requires AllSupported(cats)
    ensures var configs := GroupConfigs(cats);
      forall i, j :: 0 <= i < j < |configs| ==> configs[i].categoryType != configs[j].categoryType
  {
    var gs := Groups(cats);
    var configs := GroupConfigs(cats);
    GroupsByType(cats);
    GroupHeadsKept(cats);
    forall i, j | 0 <= i < j < |configs|
      ensures configs[i].categoryType != configs[j].categoryType
    {
      assert configs[i] == GroupConfig(gs[i]) && configs[j] == GroupConfig(gs[j]);
      assert Supported(gs[i][0]) && Supported(gs[j][0]);
    }
  }

  /** Every kept library's type has a group. */
  lemma {:induction false} GroupTypesCover(cats: seq<ViewCategory>)
    requires AllSupported(cats)
    ensures var configs := GroupConfigs(cats);
      forall c :: c in cats ==> exists i :: 0 <= i < |configs| && configs[i].categoryType == LibraryTypes[TypeKey(c)]
  {
    var gs := Groups(cats);
    var configs := GroupConfigs(cats);
    GroupsByType(cats);
    forall c | c in cats
      ensures exists i :: 0 <= i < |configs| && configs[i].categoryType == LibraryTypes[TypeKey(c)]
    {
      var i :| 0 <= i < |gs| && TypeKey(gs[i][0]) == TypeKey(c);
      assert configs[i] == GroupConfig(gs[i]);
    }
  }

  /** A group holds the ids of exactly the libraries of its type, each once, and the name of the first of them. */
  lemma {:induction false} GroupMembers(cats: seq<ViewCategory>)
    requires AllSupported(cats)
    ensures var configs := GroupConfigs(cats);
      forall i :: 0 <= i < |configs| ==>
        var members := KeyFilter(cats, TypeKey, TypeKey(Groups(cats)[i][0]));
        && members != []
        && configs[i].categoryName == members[0].name
        && configs[i].categoryId.Many?
        && (forall a, b :: 0 <= a < b < |configs[i].categoryId.ids| ==> configs[i].categoryId.ids[a] != configs[i].categoryId.ids[b])
        && (forall x :: x in configs[i].categoryId.ids <==> exists c :: c in members && c.id == x)
  {
    var gs := Groups(cats);
    var configs := GroupConfigs(cats);
    GroupsByType(cats);
    GroupHeadsKept(cats);
    forall i | 0 <= i < |configs|
      ensures var members := KeyFilter(cats, TypeKey, TypeKey(gs[i][0]));
        && members != []
        && configs[i].categoryName == members[0].name
        && configs[i].categoryId.Many?
        && (forall a, b :: 0 <= a < b < |configs[i].categoryId.ids| ==> configs[i].categoryId.ids[a] != configs[i].categoryId.ids[b])
        && (forall x :: x in configs[i].categoryId.ids <==> exists c :: c in members && c.id == x)
    {
      assert configs[i] == GroupConfig(gs[i]);
      GroupConfigIds(gs[i]);
    }
  }
}

=== FILE: sorting.dfy ===
/**
 * Python's `list.sort(key=..., reverse=...)` / `sorted(...)` on string keys,
 * which is stable, and `itertools.groupby`, which cuts a list into maximal
 * runs of equal keys. The sort is written as an insertion sort; what the
 * lemmas establish about it (ordered, a permutation, stable) determines its
 * result, so any stable sort gives the same list.
 */
module Sorting {
  import opened Text

  /** Key `a` goes strictly before key `b`: ascending, or descending when `desc` (`reverse=True`). */
  predicate Ahead(a: string, b: string, desc: bool)
  {
    if desc then StrLt(b, a) else StrLt(a, b)
  }

  predicate Sorted<T>(s: seq<T>, key: T -> string, desc: bool)
  {
    forall i, j :: 0 <= i < j < |s| ==> !Ahead(key(s[j]), key(s[i]), desc)
  }

  /** The elements of `s` whose key is `k`, in their order in `s`. */
  function KeyFilter<T>(s: seq<T>, key: T -> string, k: string): seq<T>
  {
    if s == [] then [] else (if key(s[0]) == k then [s[0]] else []) + KeyFilter(s[1..], key, k)
  }

  /** Puts `x` in front of the first element that does not go strictly before it. */
  function Insert<T>(x: T, s: seq<T>, key: T -> string, desc: bool): seq<T>
  {
    if s == [] || !Ahead(key(s[0]), key(x), desc) then [x] + s
    else [s[0]] + Insert(x, s[1..], key, desc)
  }

  function SortBy<T>(s: seq<T>, key: T -> string, desc: bool): seq<T>
  {
    if s == [] then [] else Insert(s[0], SortBy(s[1..], key, desc), key, desc)
  }

  lemma {:induction false} AheadStrict(a: string, b: string, desc: bool)
    ensures Ahead(a, b, desc) ==> a != b && !Ahead(b, a, desc)
  {
    StrLtIrreflexive(a);
    StrLtAsymmetric(a, b);
    StrLtAsymmetric(b, a);
  }

  /** "Not strictly after" is transitive, since string order is total. */
  lemma {:induction false} NotAheadTransitive(a: string, b: string, c: string, desc: bool)
    requires !Ahead(b, a, desc) && !Ahead(c, b, desc)
    ensures !Ahead(c, a, desc)
  {
    StrLtTotal(a, b);
    StrLtTotal(b, c);
    if Ahead(c, a, desc) {
      if desc {
        StrLtAsymmetric(c, a);
        if StrLt(b, a) { StrLtTransitive(b, a, c); StrLtAsymmetric(b, c); }
      } else {
        if StrLt(a, b) { StrLtTransitive(c, a, b); StrLtAsymmetric(c, b); }
      }
    }
  }

  lemma {:induction false} InsertMultiset<T>(x: T, s: seq<T>, key: T -> string, desc: bool)
    ensures multiset(Insert(x, s, key, desc)) == multiset{x} + multiset(s)
  {
    if s != [] && Ahead(key(s[0]), key(x), desc) {
      InsertMultiset(x, s[1..], key, desc);
      assert s == [s[0]] + s[1..];
    }
  }

  lemma {:induction false} SortByMultiset<T>(s: seq<T>, key: T -> string, desc: bool)
    ensures multiset(SortBy(s, key, desc)) == multiset(s)
  {
    if s != [] {
      SortByMultiset(s[1..], key, desc);
      InsertMultiset(s[0], SortBy(s[1..], key, desc), key, desc);
      assert s == [s[0]] + s[1..];
    }
  }

  lemma {:induction false} InsertSorted<T>(x: T, s: seq<T>, key: T -> string, desc: bool)
    requires Sorted(s, key, desc)
    ensures Sorted(Insert(x, s, key, desc), key, desc)
  {
    var r := Insert(x, s, key, desc);
    if s == [] || !Ahead(key(s[0]), key(x), desc) {
      forall i, j | 0 <= i < j < |r| ensures !Ahead(key(r[j]), key(r[i]), desc) {
        if i == 0 && j > 1 {
          NotAheadTransitive(key(x), key(s[0]), key(s[j - 1]), desc);
        }
      }
    } else {
      var t := Insert(x, s[1..], key, desc);
      InsertSorted(x, s[1..], key, desc);
      InsertMultiset(x, s[1..], key, desc);
      AheadStrict(key(s[0]), key(x), desc);
      forall j | 0 <= j < |t| ensures !Ahead(key(t[j]), key(s[0]), desc) {
        assert t[j] in multiset(t);
        if t[j] != x {
          assert t[j] in multiset(s[1..]);
          var m :| 0 <= m < |s[1..]| && s[1..][m] == t[j];
          assert s[m + 1] == t[j];
        }
      }
      assert r == [s[0]] + t;
    }
  }

  /** The sorted list is ordered by key and holds exactly the input's elements. */
  lemma {:induction false} SortBySorted<T>(s: seq<T>, key: T -> string, desc: bool)
    ensures Sorted(SortBy(s, key, desc), key, desc)
    ensures multiset(SortBy(s, key, desc)) == multiset(s)
  {
    SortByMultiset(s, key, desc);
    if s != [] {
      SortBySorted(s[1..], key, desc);
      InsertSorted(s[0], SortBy(s[1..], key, desc), key, desc);
    }
  }

  lemma {:induction false} InsertKeyFilter<T>(x: T, s: seq<T>, key: T -> string, desc: bool, k: string)
    ensures KeyFilter(Insert(x, s, key, desc), key, k)
         == (if key(x) == k then [x] else []) + KeyFilter(s, key, k)
  {
    if s == [] || !Ahead(key(s[0]), key(x), desc) {
      var r := [x] + s;
      assert r[0] == x && r[1..] == s;
    } else {
      var t := Insert(x, s[1..], key, desc);
      var r := [s[0]] + t;
      assert r[0] == s[0] && r[1..] == t;
      AheadStrict(key(s[0]), key(x), desc);
      InsertKeyFilter(x, s[1..], key, desc, k);
      var head := if key(s[0]) == k then [s[0]] else [];
      var mid := if key(x) == k then [x] else [];
      assert KeyFilter(r, key, k) == head + (mid + KeyFilter(s[1..], key, k));
      assert head == [] || mid == [];
      assert KeyFilter(s, key, k) == head + KeyFilter(s[1..], key, k);
    }
  }

  /** Stability: the elements sharing one key keep their relative order. */
  lemma {:induction false} SortByStable<T>(s: seq<T>, key: T -> string, desc: bool, k: string)
    ensures KeyFilter(SortBy(s, key, desc), key, k) == KeyFilter(s, key, k)
  {
    if s != [] {
      SortByStable(s[1..], key, desc, k);
      InsertKeyFilter(s[0], SortBy(s[1..], key, desc), key, desc, k);
    }
  }

  /** `groupby(s, key)`: the maximal runs of consecutive elements with equal keys. */
  function Runs<T>(s: seq<T>, key: T -> string): (rs: seq<seq<T>>)
    ensures forall i :: 0 <= i < |rs| ==> rs[i] != []
  {
    if s == [] then []
    else
      var rest := Runs(s[1..], key);
      if rest != [] && key(rest[0][0]) == key(s[0]) then [[s[0]] + rest[0]] + rest[1..]
      else [[s[0]]] + rest
  }

  lemma {:induction false} RunHeadsIn<T>(s: seq<T>, key: T -> string)
    ensures forall i :: 0 <= i < |Runs(s, key)| ==> Runs(s, key)[i][0] in s
  {
    if s != [] {
      RunHeadsIn(s[1..], key);
      var rest := Runs(s[1..], key);
      var rs := Runs(s, key);
      forall i | 0 <= i < |rs| ensures rs[i][0] in s {
        if rest != [] && key(rest[0][0]) == key(s[0]) {
          if i > 0 { assert rs[i] == rest[i]; assert rest[i][0] in s[1..]; }
        } else {
          if i > 0 { assert rs[i] == rest[i - 1]; assert rest[i - 1][0] in s[1..]; }
        }
      }
    }
  }

  /** Every element's key is the key of some run. */
  lemma {:induction false} RunsCover<T>(s: seq<T>, key: T -> string)
    ensures var rs := Runs(s, key);
      forall m :: 0 <= m < |s| ==> exists i :: 0 <= i < |rs| && key(rs[i][0]) == key(s[m])
  {
    if s != [] {
      RunsCover(s[1..], key);
      forall m | 0 <= m < |s| ensures exists i :: 0 <= i < |Runs(s, key)| && key(Runs(s, key)[i][0]) == key(s[m]) {
        if m == 0 {
          assert key(Runs(s, key)[0][0]) == key(s[0]);
        } else {
          assert s[1..][m - 1] == s[m];
          RunsCoverStep(s, key, m - 1);
        }
      }
    }
  }

  lemma {:induction false} RunsCoverStep<T>(s: seq<T>, key: T -> string, m: nat)
    requires s != [] && m < |s| - 1
    requires exists i :: 0 <= i < |Runs(s[1..], key)| && key(Runs(s[1..], key)[i][0]) == key(s[1..][m])
    ensures exists i :: 0 <= i < |Runs(s, key)| && key(Runs(s, key)[i][0]) == key(s[m + 1])
  {
    var rest := Runs(s[1..], key);
    var rs := Runs(s, key);
    var i :| 0 <= i < |rest| && key(rest[i][0]) == key(s[1..][m]);
    assert s[1..][m] == s[m + 1];
    if rest != [] && key(rest[0][0]) == key(s[0]) {
      assert rs == [[s[0]] + rest[0]] + rest[1..];
      if i == 0 {
        assert key(rs[0][0]) == key(s[m + 1]);
      } else {
        assert rs[i] == rest[i];
        assert 0 <= i < |rs| && key(rs[i][0]) == key(s[m + 1]);
      }
    } else {
      assert rs == [[s[0]]] + rest;
      assert rs[i + 1] == rest[i];
      assert 0 <= i + 1 < |rs| && key(rs[i + 1][0]) == key(s[m + 1]);
    }
  }

  /** The runs of a list sorted ascending have strictly increasing keys. */
  lemma {:induction false} RunsIncreasing<T>(s: seq<T>, key: T -> string)
    requires Sorted(s, key, false)
    ensures var rs := Runs(s, key);
      forall i, j :: 0 <= i < j < |rs| ==> StrLt(key(rs[i][0]), key(rs[j][0]))
  {
    if s != [] {
      var x, t := s[0], s[1..];
      assert Sorted(t, key, false);
      RunsIncreasing(t, key);
      var rest := Runs(t, key);
      var rs := Runs(s, key);
      if rest != [] && key(rest[0][0]) == key(x) {
        IncreasingWhenMerged(s, key);
      } else {
        assert rs == [[x]] + rest;
        RunKeysAbove(x, t, key);
        assert forall i :: 0 < i < |rs| ==> rs[i] == rest[i - 1];
      }
    }
  }

  /** When the first element joins the first run of the tail, the run keys are those of the tail. */
  lemma {:induction false} IncreasingWhenMerged<T>(s: seq<T>, key: T -> string)
    requires s != []
    requires var rest := Runs(s[1..], key);
      && rest != [] && key(rest[0][0]) == key(s[0])
      && forall i, j :: 0 <= i < j < |rest| ==> StrLt(key(rest[i][0]), key(rest[j][0]))
    ensures var rs := Runs(s, key);
      forall i, j :: 0 <= i < j < |rs| ==> StrLt(key(rs[i][0]), key(rs[j][0]))
  {
    var rest := Runs(s[1..], key);
    var rs := Runs(s, key);
    assert rs == [[s[0]] + rest[0]] + rest[1..];
    forall i, j | 0 <= i < j < |rs| ensures StrLt(key(rs[i][0]), key(rs[j][0])) {
      assert key(rs[i][0]) == key(rest[i][0]) by { if i > 0 { assert rs[i] == rest[i]; } }
      assert rs[j] == rest[j];
      assert StrLt(key(rest[i][0]), key(rest[j][0]));
    }
  }

  /** When `x` starts a run of its own, every run key of the tail is strictly above `key(x)`. */
  lemma {:induction false} RunKeysAbove<T>(x: T, t: seq<T>, key: T -> string)
    requires Sorted([x] + t, key, false)
    requires var rest := Runs(t, key);
      forall i, j :: 0 <= i < j < |rest| ==> StrLt(key(rest[i][0]), key(rest[j][0]))
    requires var rest := Runs(t, key); rest == [] || key(rest[0][0]) != key(x)
    ensures var rest := Runs(t, key); forall j :: 0 <= j < |rest| ==> StrLt(key(x), key(rest[j][0]))
  {
    var rest := Runs(t, key);
    RunHeadsIn(t, key);
    forall j | 0 <= j < |rest| ensures StrLt(key(x), key(rest[j][0])) {
      assert rest[0][0] in t && rest[j][0] in t;
      assert !StrLt(key(rest[0][0]), key(x)) by {
        var m :| 0 <= m < |t| && t[m] == rest[0][0];
        var u := [x] + t;
        assert u[0] == x && u[m + 1] == t[m];
        assert !Ahead(key(u[m + 1]), key(u[0]), false);
      }
      StrLtTotal(key(x), key(rest[0][0]));
      if j > 0 {
        StrLtTransitive(key(x), key(rest[0][0]), key(rest[j][0]));
      }
    }
  }

  /** On a list sorted ascending, the run with key `k` is exactly the elements with key `k`, in order. */
  lemma {:induction false} RunsAreKeyFilters<T>(s: seq<T>, key: T -> string)
    requires Sorted(s, key, false)
    ensures var rs := Runs(s, key);
      forall i :: 0 <= i < |rs| ==> rs[i] == KeyFilter(s, key, key(rs[i][0]))
  {
    if s != [] {
      var t := s[1..];
      assert Sorted(t, key, false);
      RunsAreKeyFilters(t, key);
      RunsIncreasing(t, key);
      RunsCover(t, key);
      var rest := Runs(t, key);
      if rest != [] && key(rest[0][0]) == key(s[0]) {
        FiltersWhenMerged(s, key);
      } else {
        FiltersWhenNewRun(s, key);
      }
    }
  }

  lemma {:induction false} FiltersWhenMerged<T>(s: seq<T>, key: T -> string)
    requires s != []
    requires var rest := Runs(s[1..], key);
      && rest != [] && key(rest[0][0]) == key(s[0])
      && (forall i, j :: 0 <= i < j < |rest| ==> StrLt(key(rest[i][0]), key(rest[j][0])))
      && (forall i :: 0 <= i < |rest| ==> rest[i] == KeyFilter(s[1..], key, key(rest[i][0])))
    ensures var rs := Runs(s, key);
      forall i :: 0 <= i < |rs| ==> rs[i] == KeyFilter(s, key, key(rs[i][0]))
  {
    var x, rest := s[0], Runs(s[1..], key);
    var rs := Runs(s, key);
    assert rs == [[x] + rest[0]] + rest[1..];
    StrLtIrreflexive(key(x));
    forall i | 0 <= i < |rs| ensures rs[i] == KeyFilter(s, key, key(rs[i][0])) {
      if i > 0 {
        assert StrLt(key(rest[0][0]), key(rest[i][0]));
        assert rs[i] == rest[i];
      }
    }
  }

  lemma {:induction false} FiltersWhenNewRun<T>(s: seq<T>, key: T -> string)
    requires s != [] && Sorted(s, key, false)
    requires var rest := Runs(s[1..], key);
      && (rest == [] || key(rest[0][0]) != key(s[0]))
      && (forall i, j :: 0 <= i < j < |rest| ==> StrLt(key(rest[i][0]), key(rest[j][0])))
      && (forall i :: 0 <= i < |rest| ==> rest[i] == KeyFilter(s[1..], key, key(rest[i][0])))
      && (forall m :: 0 <= m < |s[1..]| ==> exists i :: 0 <= i < |rest| && key(rest[i][0]) == key(s[1..][m]))
    ensures var rs := Runs(s, key);
      forall i :: 0 <= i < |rs| ==> rs[i] == KeyFilter(s, key, key(rs[i][0]))
  {
    var x, t, rest := s[0], s[1..], Runs(s[1..], key);
    var rs := Runs(s, key);
    assert rs == [[x]] + rest;
    assert s == [x] + t;
    RunKeysAbove(x, t, key);
    StrLtIrreflexive(key(x));
    forall y | y in t ensures key(y) != key(x) {
      var m :| 0 <= m < |t| && t[m] == y;
      var i :| 0 <= i < |rest| && key(rest[i][0]) == key(t[m]);
      assert StrLt(key(x), key(rest[i][0]));
    }
    KeyFilterAbsent(t, key, key(x));
    forall i | 0 <= i < |rs| ensures rs[i] == KeyFilter(s, key, key(rs[i][0])) {
      if i > 0 {
        assert rs[i] == rest[i - 1];
        assert StrLt(key(x), key(rest[i - 1][0]));
      }
    }
  }

  lemma {:induction false} KeyFilterAbsent<T>(s: seq<T>, key: T -> string, k: string)
    requires forall y :: y in s ==> key(y) != k
    ensures KeyFilter(s, key, k) == []
  {
    if s != [] {
      KeyFilterAbsent(s[1..], key, k);
    }
  }
}

=== FILE: text.dfy ===
/**
 * Python's string rendering of integers (`str(n)`, `"{:02d}"`, `"%04d"`),
 * `", ".join`, `str.lower` on ASCII, and Python's ordering of strings
 * (code point by code point, a proper prefix first).
 */
module Text {

  predicate IsDigit(c: char) { '0' <= c <= '9' }

  predicate AllDigits(s: string) { forall i :: 0 <= i < |s| ==> IsDigit(s[i]) }

  predicate IsPrefix(p: string, s: string) { |p| <= |s| && s[..|p|] == p }

  predicate IsSuffix(p: string, s: string) { |p| <= |s| && s[|s| - |p|..] == p }

  lemma {:induction false} ConcatAffixes(p: string, q: string)
    ensures IsPrefix(p, p + q) && IsSuffix(q, p + q)
  {
  }

  lemma {:induction false} ConcatAffixes3(p: string, q: string, r: string)
    ensures IsPrefix(p, p + q + r) && IsSuffix(r, p + q + r)
    ensures |p + q + r| == |p| + |q| + |r| && (p + q + r)[|p|..|p| + |q|] == q
  {
    assert (p + q + r)[..|p|] == p;
    assert (p + q + r)[|p|..|p| + |q|] == q;
    assert (p + q + r)[|p + q + r| - |r|..] == r;
  }

  function DigitChar(d: nat): (c: char)
    requires d < 10
    ensures IsDigit(c)
  {
    ('0' as int + d) as char
  }

  /** The value of a string of decimal digits (leading zeros allowed). */
  function DigitsValue(s: string): nat
    requires AllDigits(s)
  {
    if s == [] then 0 else DigitsValue(s[..|s| - 1]) * 10 + (s[|s| - 1] as int - '0' as int)
  }

  /** Python's `str(n)` for a non-negative integer: shortest decimal form. */
  function NatToString(n: nat): (s: string)
    ensures 1 <= |s| && AllDigits(s)
    ensures |s| > 1 ==> s[0] != '0'
    ensures n < 10 <==> |s| == 1
  {
    if n < 10 then [DigitChar(n)] else NatToString(n / 10) + [DigitChar(n % 10)]
  }

  lemma {:induction false} NatToStringRoundTrip(n: nat)
    ensures DigitsValue(NatToString(n)) == n
  {
    if n >= 10 {
      var s := NatToString(n);
      assert s[..|s| - 1] == NatToString(n / 10);
      NatToStringRoundTrip(n / 10);
    }
  }

  /** Python's `str(i)` for any integer. */
  function IntToString(i: int): (s: string)
    ensures i < 0 <==> (|s| > 0 && s[0] == '-')
  {
    if i < 0 then "-" + NatToString(-i) else NatToString(i)
  }

  /** An integer as Python writes it: an optional minus sign, then digits. */
  predicate IntText(s: string)
  {
    |s| > 0 && (s[0] == '-' ==> AllDigits(s[1..])) && (s[0] != '-' ==> AllDigits(s))
  }

  /** Reads back what `IntToString` writes. */
  function IntValue(s: string): int
    requires IntText(s)
  {
    if s[0] == '-' then -(DigitsValue(s[1..]) as int) else DigitsValue(s)
  }

  lemma {:induction false} IntToStringRoundTrip(i: int)
    ensures IntText(IntToString(i)) && IntValue(IntToString(i)) == i
  {
    var s := IntToString(i);
    if i < 0 {
      assert s[1..] == NatToString(-i);
      NatToStringRoundTrip(-i);
    } else {
      NatToStringRoundTrip(i);
    }
  }

  /** `n` in decimal, left-padded with zeros to at least `width` characters (`"%0<width>d"`). */
  function ZeroPad(n: nat, width: nat): (s: string)
    ensures AllDigits(s)
    ensures |s| == if |NatToString(n)| >= width then |NatToString(n)| else width
    decreases width
  {
    if |NatToString(n)| >= width then NatToString(n) else "0" + ZeroPad(n, width - 1)
  }

  lemma {:induction false} LeadingZero(s: string)
    requires AllDigits(s)
    ensures AllDigits("0" + s) && DigitsValue("0" + s) == DigitsValue(s)
  {
    if s != [] {
      var t := "0" + s;
      assert t[..|t| - 1] == "0" + s[..|s| - 1];
      LeadingZero(s[..|s| - 1]);
    }
  }

  /** Padding never changes the number that is written. */
  lemma {:induction false} ZeroPadValue(n: nat, width: nat)
    ensures DigitsValue(ZeroPad(n, width)) == n
    decreases width
  {
    if |NatToString(n)| >= width {
      NatToStringRoundTrip(n);
    } else {
      ZeroPadValue(n, width - 1);
      LeadingZero(ZeroPad(n, width - 1));
    }
  }

  /**
   * Python's `"{:02d}".format(i)`: two digits at least, zero-filled; a
   * negative number is already two characters wide and is written as `str`.
   */
  function Format02(i: int): (s: string)
    ensures |s| >= 2
    ensures IntText(s) && IntValue(s) == i
    ensures 0 <= i < 100 ==> |s| == 2 && AllDigits(s) && DigitsValue(s) == i
  {
    if i >= 0 then
      ZeroPadValue(i, 2);
      assert IsDigit(ZeroPad(i, 2)[0]);
      ZeroPad(i, 2)
    else
      IntToStringRoundTrip(i);
      IntToString(i)
  }

  /** Python's integer text holds no letter. */
  lemma {:induction false} IntTextNoLetter(s: string, c: char)
    requires IntText(s) && c != '-' && !IsDigit(c)
    ensures forall j :: 0 <= j < |s| ==> s[j] != c
  {
    forall j | 0 <= j < |s| ensures s[j] != c {
      if s[0] == '-' && j > 0 {
        assert s[j] == s[1..][j - 1];
      }
    }
  }

  /** Python's `s[:n]`: the first `n` elements, or all but the last `-n` when `n` is negative. */
  function PyPrefix<T>(s: seq<T>, n: int): (r: seq<T>)
    ensures |r| <= |s| && r == s[..|r|]
    ensures 0 <= n ==> |r| == if n < |s| then n else |s|
    ensures n < 0 ==> |r| == if -n < |s| then |s| + n else 0
  {
    if 0 <= n then (if n < |s| then s[..n] else s)
    else (if -n < |s| then s[..|s| + n] else [])
  }

  /** `sep.join(parts)`. */
  function Join(sep: string, parts: seq<string>): string
  {
    if |parts| == 0 then ""
    else if |parts| == 1 then parts[0]
    else parts[0] + sep + Join(sep, parts[1..])
  }

  lemma {:induction false} JoinSingleAndPair(sep: string, a: string, b: string)
    ensures Join(sep, [a]) == a
    ensures Join(sep, [a, b]) == a + sep + b
  {
    assert [a, b][1..] == [b];
  }

  /** Python's `str.lower`, restricted to ASCII letters. */
  function LowerChar(c: char): (d: char)
    ensures !('A' <= d <= 'Z')
    ensures !('A' <= c <= 'Z') ==> d == c
  {
    if 'A' <= c <= 'Z' then (c as int - 'A' as int + 'a' as int) as char else c
  }

  function Lower(s: string): (t: string)
    ensures |t| == |s|
    ensures forall i :: 0 <= i < |s| ==> t[i] == LowerChar(s[i])
  {
    seq(|s|, i requires 0 <= i < |s| => LowerChar(s[i]))
  }

  /** Python's `a < b` on `str`. */
  predicate StrLt(a: string, b: string)
  {
    if a == [] then b != []
    else if b == [] then false
    else if a[0] != b[0] then a[0] < b[0]
    else StrLt(a[1..], b[1..])
  }

  lemma {:induction false} StrLtIrreflexive(a: string)
    ensures !StrLt(a, a)
  {
    if a != [] { StrLtIrreflexive(a[1..]); }
  }

  lemma {:induction false} StrLtAsymmetric(a: string, b: string)
    ensures StrLt(a, b) ==> !StrLt(b, a)
  {
    if a != [] && b != [] && a[0] == b[0] { StrLtAsymmetric(a[1..], b[1..]); }
  }

  lemma {:induction false} StrLtTransitive(a: string, b: string, c: string)
    requires StrLt(a, b) && StrLt(b, c)
    ensures StrLt(a, c)
  {
    if a != [] && b != [] && c != [] && a[0] == b[0] && b[0] == c[0] {
      StrLtTransitive(a[1..], b[1..], c[1..]);
    }
  }

  lemma {:induction false} StrLtTotal(a: string, b: string)
    ensures a == b || StrLt(a, b) || StrLt(b, a)
  {
    if a != [] && b != [] && a[0] == b[0] {
      StrLtTotal(a[1..], b[1..]);
      if a[1..] == b[1..] {
        assert a == [a[0]] + a[1..] && b == [b[0]] + b[1..];
      }
    }
  }
}

=== FILE: wrappers.dfy ===
/** The usual optional-value wrapper: a JSON key that may be missing. */
module Wrappers {

  datatype Option<+T> = None | Some(value: T) {

    /** The value, or `default` when absent: Python's `d.get(key, default)`. */
    function GetOr(default: T): T {
      match this
      case Some(v) => v
      case None => default
    }
  }
}
